=== FILE: README.md ===
# Role-gated database assistant: control logic in Dafny

This project models the deterministic control logic of the role-gated
database assistant in `src/simple.py`. The assistant is a LangGraph graph of
six nodes:

- `check_access` decides from the claimed role and optional user id whether
  the request may go on, and puts a system directive in front of the history.
- `plan` asks a language model for a JSON plan. When that answer does not
  parse, it builds the plan itself from an ordered keyword classifier and a
  table-mention extractor.
- `clarify` asks the user the plan's first question.
- `execute` re-checks the role against global metadata steps. It then runs
  every planned step against the PostgreSQL catalog, leaving one result or
  error record per step of a known type; a step of any other type leaves
  none.
- `reason` has a second model write an intermediate answer.
- `finalize` passes an overview through untouched, or has a model compose
  the reply.

Three guards (`_after_access`, `should_clarify`, `should_reason`) choose the
branches. The two pure helpers are modelled too: reading a .NET-style
connection string, and grouping foreign-key rows by constraint.

Everything outside the control logic is a parameter:

- the language models (`Graph.Oracles`);
- the table-mention extractor;
- the store (`Catalog.Db`), which holds one table listing and one answer per
  remaining query, each as a `Result`, so that an exception raised by a query
  is modelled. The table count, the table list and table resolution are all
  read from that one listing.

The graph state is a plain `TypedDict` without reducers, so a node's
returned keys overwrite the old ones: a node that returns `messages`
replaces the history, it does not append to it.

Modules, one file each:

| module | file | models |
|---|---|---|
| `Wrappers` | wrappers.dfy | `Option` and `Result` |
| `Strings` | strings.dfy | `str.lower` (ASCII and Latin-1), `strip`, `in`, `split`, `join` |
| `Numerals` | numerals.dfy | `int(text)` on base-10 literals, and `str(n)` |
| `Ordering` | ordering.dfy | Python's `str` ordering and `sorted(set(...))` |
| `Catalog` | catalog.dfy | the store oracle, `resolve_table_identifier`, the `get_sample_rows` clamp, `dict(zip(...))` |
| `AgentState` | state.dfy | messages, actions, plans, result records, the graph state, `get_last_user_message` |
| `AccessGate` | access_gate.dfy | `check_user_access` |
| `Planner` | planner.dfy | `detect_db_intent`, `plan_with_groq`, `should_clarify`, `ask_for_clarification` |
| `Executor` | executor.dfy | `execute_db_actions`, `should_reason` |
| `Finalizer` | finalizer.dfy | `reason_with_gemini`, `finalize_with_groq` |
| `Graph` | graph.dfy | the graph wiring, `_after_access`, whole runs |
| `ConnString` | conn_string.dfy | `_parse_dotnet_pg_connstr` |
| `ForeignKeys` | foreign_keys.dfy | the row grouping of `get_foreign_keys` |

## Model

| member | source | states |
|---|---|---|
| AccessGate.Decide | src/simple.py:355-383 | The decision table. A missing role reads as "usuario". "empleado" and "administrador" get full access whatever the id. "usuario" and "cliente" get access to their own data exactly when the id is truthy, so id 0 is refused. Any other role is unknown and refused. |
| AccessGate.GrantedIff | src/simple.py:355-383 | Access is granted if and only if the role is staff, or an end user with a truthy id. With no role given, access is granted if and only if the id is truthy. |
| AccessGate.CheckUserAccess | src/simple.py:352-389 | The grant is set to the verdict. The new history is exactly one system directive stating the verdict, followed by the old messages unchanged and in order. No other key changes. |
| AgentState.LastUserMessage | src/simple.py:129-134 | Returns "" when no message is human. Otherwise returns the content of a human message after which no human message follows. |
| Planner.DetectIntent | src/simple.py:136-156 | Returns no intent, or one of the six intents. The rule lemmas `CountRuleFires`, `ListRuleFires`, `ColumnsRuleFires`, `RowCountRuleFires`, `SampleRuleFires` and `OverviewRuleFires` each state, in both directions, which texts get their intent, and `DetectIntentNoneIff` which get none. |
| Planner.DetectIntentIgnoresCase | src/simple.py:140 | Lower-casing the text first does not change the intent. |
| Planner.DetectIntentNoneIff | src/simple.py:136-156 | No intent if and only if no keyword of any rule occurs in the lower-cased text and neither does "tablas". |
| Planner.CountPhraseWins | src/simple.py:141-144 | Any count phrase in the text makes the intent "count", whatever else the text holds. |
| Planner.CountRuleFires | src/simple.py:141-144 | The intent is "count" if and only if the lower-cased text has a count phrase. |
| Planner.ColumnsRuleFires | src/simple.py:141-148 | The intent is "columns" if and only if the lower-cased text fires neither the count nor the list rule and has a columns keyword. A text with both "tablas" and "columnas" and no count or list phrase therefore asks for columns. |
| Planner.ListRuleFires | src/simple.py:141-146 | The intent is "list" if and only if the lower-cased text has no count phrase and has a list phrase, or has "tablas" without "columnas". |
| Planner.RowCountRuleFires | src/simple.py:141-150 | The intent is "rowcount" if and only if the lower-cased text fires neither the count nor the list rule, has no columns keyword, and has a row-count keyword. |
| Planner.SampleRuleFires | src/simple.py:141-152 | The intent is "sample" if and only if the lower-cased text fires none of the count, list, columns and row-count rules, and has a sample keyword. |
| Planner.OverviewRuleFires | src/simple.py:141-155 | The intent is "overview" if and only if the lower-cased text fires none of the five earlier rules and has an overview keyword. |
| Planner.CountQuestionExample | src/simple.py:141-144 | "¿cuántas tablas hay?" asks for the table count. |
| Planner.ColumnsRequestExample | src/simple.py:143-148 | "muéstrame las columnas" asks for columns. |
| Planner.OverviewPhraseShadowed | src/simple.py:147-155 | The overview phrase "estructura completa" is classified as "columns", because the columns rule sees "estructura" first. |
| Planner.FallbackPlan | src/simple.py:418-434 | The plan built when the model's answer does not parse. Its intent is the detected one, or "general". It holds at most one step or one question. Count, list and overview map to exactly their one global step. A table-scoped intent carries the mentioned table; with no mention it has no step and exactly the table question. A sample step always has limit 5. A text with no intent gives the step-less "general" plan. |
| Planner.ColumnsWithoutTableExample | src/simple.py:418-434 | "muéstrame las columnas" with no table mention gives the "columns" plan with no step and the table question. |
| Planner.PlanNode | src/simple.py:400-436 | Without access, the history is replaced by the denial and nothing else changes. With access, only the plan changes: it is the model's plan when that parses, and the fallback plan of the last human message otherwise. |
| Planner.ShouldClarify | src/simple.py:439-443 | Routes to clarification if and only if the plan exists and has a question; otherwise routes to execution. |
| Planner.AskForClarification | src/simple.py:446-449 | The history becomes one AI message: the plan's first question, or the default question when there is none. No other key changes. |
| Planner.ClarifyAsksForTable | src/simple.py:418-449 | A granted request whose model answer does not parse, with a table-scoped intent and no table mention, is routed to clarification and asked which table. |
| Catalog.ResolveTable | src/simple.py:171-209 | An empty name gives three `None`s. Otherwise exactly one of table and error is set, and the schema is set exactly when the table is. A resolved pair is in the catalog. Every error text is non-empty. |
| Catalog.ResolveQualified | src/simple.py:175-191 | A `schema.table` token resolves to that exact pair when the catalog lists it, and is reported missing otherwise. |
| Catalog.ResolveNotFound | src/simple.py:192-205 | An unqualified name that no table carries gives the "no existe" error. |
| Catalog.ResolveUnique | src/simple.py:192-209 | An unqualified name carried by exactly one table resolves to that table, with no error. |
| Catalog.ResolveAmbiguous | src/simple.py:204-208 | An unqualified name carried by two different tables gives the ambiguity error. The error lists every schema holding the name, sorted, each once. |
| Catalog.SchemasHolding | src/simple.py:207 | The schemas holding a table of that name, strictly sorted, each once, and no others. |
| Catalog.WithName | src/simple.py:194-203 | The catalog rows carrying the name: exactly those. |
| Catalog.ClampLimit | src/simple.py:239-241 | A limit in 1..100 is kept. Any other limit becomes 5. |
| Catalog.GetSampleRows | src/simple.py:239-252 | The query runs with the clamped limit and fails exactly when that query fails. On success the result is the header row followed by the fetched rows. On a store that honours LIMIT, the result has at most 101 rows. |
| Catalog.Zip | src/simple.py:501-502 | The keys are exactly the headers that have a value in the row. The last occurrence of a repeated header wins. |
| Ordering.SortedSet | src/simple.py:207 | Strictly sorted, with the same elements as the input. |
| Ordering.SortedListingUnique | src/simple.py:207 | Two strictly sorted lists with the same elements are equal, so the schema listing is determined by the set of schemas. |
| Executor.RunGlobal | src/simple.py:466-475 | A global step fails exactly when the query it uses fails, with that query's error. On success it leaves a record of its own kind with no table. "overview" holds the overview text, "count_tables" the number of listed tables, and "list_tables" the `schema.table` name of every listed table, in listing order. |
| Executor.RunOnTable | src/simple.py:486-503 | A table-scoped step on a resolved table fails exactly when its query fails, with that error. On success it leaves a record of its own kind naming `schema.table`. "columns" holds the column answer and "rowcount" the row count. "sample" holds one record per fetched row, using the effective limit. |
| Executor.RunScoped | src/simple.py:476-503 | No table token gives the "Tabla no especificada" error record. A token that does not resolve gives the resolver's error as that step's record. A failing table listing fails the step. A resolved token runs the step on the resolved table. A successful record has the step's kind. |
| Executor.RecordsOf | src/simple.py:496-503 | One record per fetched row, each pairing the header row with that row. |
| Executor.RunAction | src/simple.py:465-503 | An unknown kind leaves no record. A global step fails exactly when `RunGlobal` fails, with its error, and otherwise leaves `RunGlobal`'s record. A table-scoped step does the same with `RunScoped` on the step's table, or the mention in the user text. A known kind's record has the step's kind, and only table-scoped steps leave error records. |
| Executor.ExecuteActions | src/simple.py:463-506 | On success the record actions are the known step kinds, in plan order, and only table-scoped steps carry errors. A failure is the first step that raised, all steps before it having succeeded. When no step raises, the run succeeds. |
| Executor.ExecutedInPlanOrder | src/simple.py:463-503 | In a successful run, every step ran. The record at a known step's place, right after the records of the known steps before it, is exactly what that step produced. |
| Executor.UnresolvedTableRecorded | src/simple.py:476-484 | In a successful run, a table-scoped step with no table, or with a table that does not resolve, leaves that error at its place. The steps after it still run. |
| Executor.ExecuteNode | src/simple.py:452-507 | A non-staff role with a global step in the plan gets exactly the denial as history, and no other key changes, whatever the store holds. Otherwise the steps run. A successful run stores its records and changes nothing else. A raising run makes the history exactly the error reply with the exception text, and changes nothing else. New records are well formed and follow the plan's known kinds. For a non-staff role, no new record is global. |
| Executor.StoredRecordIsAnswer | src/simple.py:463-503 | When the run succeeds, the records stored hold, at each known step's place, exactly that step's global or table-scoped result computed from the store. |
| Executor.ShouldReason | src/simple.py:510-514 | Routes to the end if and only if there are no records and the history is non-empty; otherwise routes to reasoning. |
| Finalizer.ReasonNode | src/simple.py:517-533 | Sets the intermediate answer and nothing else. The answer is the reasoning model's reply to the plan (or the empty plan), the last human message, the role, and the records (or an empty list). The model's cells are all JSON-serializable, so the node never raises (see `Catalog.Cell` under Left out). |
| Finalizer.OverviewActions | src/simple.py:545 | In well-formed records, the action is "overview" exactly for completed overview steps. |
| Finalizer.FirstOverviewAt | src/simple.py:546 | The position of the first completed overview, or the length when there is none. |
| Finalizer.FinalizeNode | src/simple.py:536-559 | With an overview record among the results, the reply is exactly the first such record's text and the composing model is not consulted. Otherwise the reply is the composer's. Either way the history becomes that one reply and nothing else changes. As for `ReasonNode`, the node never raises, because every modelled cell is JSON-serializable. |
| Graph.AfterAccess | src/simple.py:574-575 | Routes to planning if and only if access was granted. |
| Graph.EdgesAscend | src/simple.py:571-598 | Every declared edge goes up in rank, so the graph has no cycle. |
| Graph.Step | src/simple.py:563-569 | Every node keeps the records sound, and keeps role and id. Only the gate sets the grant. Only execution sets records. Only planning sets the plan. A non-empty history stays non-empty. |
| Graph.Next | src/simple.py:571-598 | The next node is always along a declared edge. |
| Graph.Run | src/simple.py:563-598 | For stores whose sample cells are JSON-serializable (see `Catalog.Cell` under Left out), a run from any node reaches the terminal along declared edges, visiting at most one node per rank. It ends in a sound state with role and id unchanged. |
| Graph.Invoke | src/simple.py:563-598 | For stores whose sample cells are JSON-serializable (see `Catalog.Cell` under Left out), a fresh request runs from the gate to the end in at most six nodes, along declared edges, with role and id unchanged. |
| Graph.DeniedAtGate | src/simple.py:574-582 | A refused request stops right after the gate. The final state is the gate's output. |
| Graph.NoGlobalRecordsForUsers | src/simple.py:458-461 | For a non-staff role, no final record is of a global step, whatever the models plan and whatever the store holds. |
| Graph.GrantKept | src/simple.py:400-598 | Past the gate, no node changes the grant. |
| Graph.GrantDecidedOnce | src/simple.py:352-389 | The grant a request ends with is the gate's. |
| Graph.ReasonOnlyWithRecords | src/simple.py:510-514 | The reasoning node is reached only when execution stored records. |
| Graph.ReasonKeepsRecords | src/simple.py:517-559 | From reasoning on, the records are not touched. |
| Graph.RefusedAtExecution | src/simple.py:458-461 | A refused plan stops at execution, with the denial as the history. |
| Graph.GlobalStepRefused | src/simple.py:458-514 | A granted non-staff request whose plan holds a global step ends with the path gate, plan, execute, end. The history is only the denial, and there are no records, whatever the store holds. |
| Graph.QueryFailureAtExecution | src/simple.py:504-514 | An accepted plan whose run raises stops at execution. The history is exactly the error reply with the exception text, and there are no records. |
| Graph.QueryFailureEndsRun | src/simple.py:452-514 | A granted request whose accepted plan raises ends with the path gate, plan, execute, end. The history is only the error reply, and there are no records. |
| ConnString.NonBlank | src/simple.py:49 | Every kept segment is non-empty, and there are no more segments than pieces. |
| ConnString.NonBlankIsAt | src/simple.py:49 | The kept segments are, in order, the stripped pieces at exactly the positions whose piece is not blank once stripped. Each such position appears once, in ascending order. |
| ConnString.NonBlankOfPlain | src/simple.py:49 | Segments that are non-empty and already stripped pass unchanged. |
| ConnString.Entry | src/simple.py:52-55 | A segment gives an entry exactly when it holds `=`. The key is the text before the first `=`, stripped and lower-cased. The value is the stripped text after that `=`, and may itself hold `=`. The key has no upper-case letter. |
| ConnString.AssignHasKeys | src/simple.py:50-55 | Every entry's key is in the settings map. |
| ConnString.AssignLastWins | src/simple.py:50-55 | Every key maps to the value of the last entry with that key. |
| ConnString.SslModeOf | src/simple.py:61 | The SSL mode is the lower-cased value of "ssl mode" when that is non-empty. Otherwise it is the lower-cased value of "sslmode" when that is non-empty, and "require" when both are absent or empty. It is never empty and has no upper-case letter. |
| ConnString.PortOf | src/simple.py:60 | A "port" key is read with `int`. No key gives 5432. |
| ConnString.FromSettings | src/simple.py:56-70 | Fails if and only if a "port" key is there and is not an integer literal. The port is that key's reading. A non-empty "host" wins; otherwise the host is the "server" value, or absent. The database is a non-empty "database", otherwise "dbname". The user is the first non-empty of "username" and "user id", otherwise "user". The password is the key's value. The SSL mode is as `SslModeOf` says. |
| ConnString.PortDefaults | src/simple.py:60 | Settings without a port always read, with port 5432. |
| ConnString.EntryOfField | src/simple.py:49-55 | A `key=value` segment with plain key and value is its own stripped form, and reads as the lower-cased key and the value. |
| ConnString.ParseRender | src/simple.py:47-70 | Writing a configuration as a connection string and reading it back gives the configuration. |
| ForeignKeys.Names | src/simple.py:296-301 | The constraint names in order of first appearance: exactly the names of the rows, each once. |
| ForeignKeys.Named | src/simple.py:297-300 | The rows of one constraint, in order: all with that name, non-empty exactly when some row has it. |
| ForeignKeys.NamedPositions | src/simple.py:297-300 | The rows of one constraint are the rows at exactly the positions of rows with that name, each once and in ascending order. Every row with the name is selected, and the selection keeps the rows' order. |
| ForeignKeys.Grouped | src/simple.py:296-301 | One record per constraint name, in order of first appearance. Each record holds its rows' columns and referenced columns, with the first row's referenced schema and table. |
| ForeignKeys.FindGroup | src/simple.py:298-299 | The position of the first record with that name, or the length when there is none. |
| ForeignKeys.Insert | src/simple.py:298-300 | One more row adds at most one record, and leaves the records of other constraints as they were. |
| ForeignKeys.InsertKnown | src/simple.py:298-300 | A row of a known constraint extends that constraint's record in place. |
| ForeignKeys.InsertNew | src/simple.py:298-300 | A row of a new constraint appends a record opened with that row's referenced schema and table. |
| ForeignKeys.GroupForeignKeys | src/simple.py:296-301 | The loop's result is the constraint-by-constraint grouping. |
| ForeignKeys.GroupedSnoc | src/simple.py:297-300 | Folding one more row into the grouping gives the grouping of all the rows. |
| ForeignKeys.GroupedCoversRows | src/simple.py:296-301 | Every row's column and referenced column land in the record of its constraint. No two records share a constraint name. |
| Numerals.IntToString | src/simple.py:373 | Decimal digits, with a leading minus exactly for a negative number. There is no leading zero, so the text starts with "0" only for 0. |
| Numerals.ParseIntOfIntToString | src/simple.py:60 | `int` reads back any rendered integer. |
| Numerals.ParseDigits | src/simple.py:60 | Plain digits read as their value. |
| Strings.Lower | src/simple.py:140 | Same length. Each character is lower-cased on its own. |
| Strings.LowerChar | src/simple.py:140 | The result is never an upper-case letter. An upper-case letter moves 32 code points up, to its lower-case form. Any other character is unchanged. |
| Strings.LowerIdempotent | src/simple.py:140 | Lower-casing twice is lower-casing once. |
| Strings.Strip | src/simple.py:49 | The result has no whitespace on either border, and in the text it is surrounded by whitespace only. |
| Strings.Split | src/simple.py:49 | Never an empty list, and no piece holds the separator. |
| Strings.JoinSplit | src/simple.py:49 | Joining the pieces of a split with the separator gives the text back. |
| Strings.SplitJoin | src/simple.py:49 | Splitting a join of separator-free pieces gives the pieces back. |

## Notes on the source

- The gate and the executor read a missing role differently. The gate
  defaults it to "usuario" (src/simple.py:356). The executor reads it with no
  default (src/simple.py:455), so a missing role is restricted there too.
  `Graph.NoGlobalRecordsForUsers` holds for both readings.
- Nodes overwrite `messages`. Past the gate, the planner's denial, the
  executor's denial or error, the clarification and the final reply each
  replace the history instead of appending to it. `ExecuteNode`,
  `FinalizeNode` and `AskForClarification` say so.
- Two overview phrases can never produce an overview. "estructura completa"
  holds the columns keyword "estructura", and "todas las tablas y columnas"
  holds "columnas". The columns rule runs before the overview rule.
  `Planner.OverviewPhraseShadowed` proves the first case. The model keeps
  the source's order.
- `detect_db_intent` and `FallbackPlan` never produce a "count_tables",
  "list_tables" or "overview" step without the matching intent. A
  model-written plan may still hold any step. This is why the role re-check
  in the executor, not the planner, is what keeps global metadata from
  non-staff users (`Graph.GlobalStepRefused`).

## Left out

- The language-model calls (src/simple.py:416, 524, 549) are oracles. A transport failure, and a plan that parses but has the wrong shape, are not modelled. The planner oracle returns either a well-typed plan or nothing, for an answer that does not parse.
- `extract_table_mention` (src/simple.py:158-168) is an uninterpreted function, not a model of its regular expressions.
- The SQL queries and their identifier quoting (`get_table_list`, `get_table_count`, `get_columns`, `get_row_count_for_table`, `get_primary_key`, `get_indexes`, `execute_query`, `get_db_connection`) are answers of the store oracle. So is the text of `get_db_overview` (src/simple.py:317-349).
- Catalog.Db: the store holds one table listing. `count_tables`, `list_tables` and table resolution are all read from it, while the source runs a separate `COUNT(*)` query, a listing query and per-token lookup queries (src/simple.py:115-127, 179-203). A store whose count query disagrees with its listing, or where one of these queries fails while another succeeds, is not modelled.
- AccessGate.EffectiveRole: `None` stands for an absent "user_role" key, which reads as "usuario". A key that is present with the value `None` is an unknown role in the source and is refused (src/simple.py:356), but the model cannot tell it from an absent key. The HTTP front ends always send a role string.
- Non-integer sample limits: the plan's limit is an integer already. `int()` of a text or float limit, and the exception it may raise, are not modelled.
- The environment configuration and the `lru_cache` of `_effective_db_config` (src/simple.py:13-35, 72-76) are configuration I/O.
- Strings.Lower: only ASCII and Latin-1 letters are lower-cased. Python's full Unicode case mapping is not modelled; the keywords and the connection-string keys only use these letters.
- Numerals.ParseInt: accepts ASCII digits with single underscores, an optional sign and surrounding whitespace. Python's `int` also accepts non-ASCII decimal digits, and its error message includes the text.
- ForeignKeys.GroupForeignKeys: the query's ordering by constraint name and column position is not assumed. The grouping is proved for rows in any order.
- The JSON payloads sent to the reasoning and composing models are abstracted to tuples of their fields. A sample record is a map from header to value, so the column order that `dict(zip(...))` keeps, and that shows in the JSON text, is not modelled.
- Catalog.Cell: a sample value is null, an integer, a text or a boolean. The driver also returns `Decimal`, `date`, `datetime` and `memoryview` values for `numeric`, date/time and `bytea` columns. `json.dumps` in the reasoning node (src/simple.py:526) and in the finalizer's composing branch (src/simple.py:551) raises `TypeError` on them. Nothing catches it, so the whole request ends with that exception. The model has no such cells, so it has no such run.
- Graph.Run: ending at the terminal node holds only for stores whose sample cells are JSON-serializable. A sample step on a table with a `numeric`, date/time or `bytea` column makes the source raise at src/simple.py:526 instead (see `Catalog.Cell`).
- Graph.Invoke: the same restriction as `Graph.Run`. A fresh request whose records hold a value that is not JSON-serializable raises in the reasoning node rather than reaching the end.
- Finalizer.ReasonNode: the reasoning oracle is total. The `TypeError` that `json.dumps` raises on cells that are not JSON-serializable is not modelled (see `Catalog.Cell`). The same holds for `Finalizer.FinalizeNode`'s composing branch.
- `src/server.py`, `api/main.py`, `src/main.py`, `setup_database.py` and `test_galleta.py` are HTTP plumbing, agent construction, database setup and an interactive script. None of them is part of this model.

=== FILE: access_gate.dfy ===
/** The access gate: the first node of the graph. It decides from the claimed
    role and the optional user id whether the request may go on, and puts
    one directive in front of the history saying so and with what scope. */
module AccessGate {
  import opened Wrappers
  import opened Numerals
  import opened AgentState

  /** The role the gate reads: "usuario" when none was given. */
  function EffectiveRole(role: Option<string>): string {
    role.GetOr("usuario")
  }

  /** Python truthiness of the user id: present and not 0. */
  predicate IdIsTruthy(id: Option<int>) {
    id.Some? && id.value != 0
  }

  function FullAccessDirective(role: string): string {
    "Eres un asistente con rol de " + role + ". "
    + "Tienes acceso completo a toda la información de la base de datos. "
    + "Puedes consultar y modificar cualquier registro."
  }

  function SelfOnlyDirective(role: string, id: int): string {
    "Eres un asistente con rol de " + role + ". "
    + "Solo puedes acceder a la información del usuario con ID " + IntToString(id) + ". "
    + "No puedes consultar ni modificar información de otros usuarios."
  }

  const NoValidIdDirective := "Acceso denegado. No se proporcionó un ID de usuario válido."

  const UnknownRoleDirective := "Rol de usuario no reconocido."

  /** The gate's verdict: full access for staff, access to one's own data
      for an end user with a usable id, or one of the two refusals. */
  datatype Verdict =
    | FullAccess(role: string)
    | SelfOnly(role: string, id: int)
    | NoValidId
    | UnknownRole
  {
    predicate Granted() {
      FullAccess? || SelfOnly?
    }
  }

  predicate IsStaff(role: string) {
    role == "empleado" || role == "administrador"
  }

  predicate IsEndUser(role: string) {
    role == "usuario" || role == "cliente"
  }

  /** The gate's decision table: staff get full access whatever the id; end
      users and customers get access to their own data exactly when their id
      is truthy (so id 0 is refused); any other role is unknown. */
  function Decide(userRole: Option<string>, userId: Option<int>): (v: Verdict)
    ensures var role := EffectiveRole(userRole);
            && (IsStaff(role) ==> v == FullAccess(role))
            && (IsEndUser(role) && IdIsTruthy(userId) ==> v == SelfOnly(role, userId.value))
            && (IsEndUser(role) && !IdIsTruthy(userId) ==> v == NoValidId)
            && (!IsStaff(role) && !IsEndUser(role) ==> v == UnknownRole)
  {
    var role := EffectiveRole(userRole);
    if IsStaff(role) then FullAccess(role)
    else if IsEndUser(role) then
      if IdIsTruthy(userId) then SelfOnly(role, userId.value) else NoValidId
    else UnknownRole
  }

  /** Access is granted exactly to staff and to end users with a truthy id;
      a missing role counts as an end user. */
  lemma GrantedIff(userRole: Option<string>, userId: Option<int>)
    ensures var role := EffectiveRole(userRole);
            Decide(userRole, userId).Granted() <==> IsStaff(role) || (IsEndUser(role) && IdIsTruthy(userId))
    ensures userRole.None? ==> (Decide(userRole, userId).Granted() <==> IdIsTruthy(userId))
  {
    var role := EffectiveRole(userRole);
    if IsEndUser(role) {
      assert |role| == 7;
    }
    if userRole.None? {
      assert IsEndUser(role);
    }
  }

  /** The system directive stating a verdict. */
  function Directive(v: Verdict): string {
    match v
    case FullAccess(role) => FullAccessDirective(role)
    case SelfOnly(role, id) => SelfOnlyDirective(role, id)
    case NoValidId => NoValidIdDirective
    case UnknownRole => UnknownRoleDirective
  }

  /** The gate node. The grant is the verdict's; the history gains exactly
      one system directive in front stating the verdict, the old messages
      follow unchanged and in order, and nothing else changes. */
  function CheckUserAccess(s: State): (r: State)
    ensures var v := Decide(s.userRole, s.userId);
            && r.accessGranted == Some(v.Granted())
            && |r.messages| == |s.messages| + 1 && r.messages[0] == System(Directive(v)) && r.messages[1..] == s.messages
    ensures r == s.(accessGranted := r.accessGranted, messages := r.messages)
  {
    var v := Decide(s.userRole, s.userId);
    s.(accessGranted := Some(v.Granted()), messages := [System(Directive(v))] + s.messages)
  }
}

=== FILE: catalog.dfy ===
/** The schema introspector as the assistant's control logic sees it: a
    catalog of user tables (system schemas already excluded), per-table
    oracles standing for the SQL queries, table-name resolution, and the
    row-sample clamp. Every query may raise; a raised exception is a
    `Failure` carrying its text. */
module Catalog {
  import opened Wrappers
  import opened Strings
  import opened Ordering

  datatype TableId = TableId(schema: string, name: string)

  /** The `schema.table` rendering used in results and listings. */
  function Qualified(t: TableId): string {
    t.schema + "." + t.name
  }

  /** A column as `information_schema.columns` describes it; `nullable` is
      the catalog's own "YES"/"NO" text. */
  datatype ColumnInfo = ColumnInfo(name: string, dataType: string, nullable: string)

  /** A value in a fetched row, limited to the kinds `json.dumps` accepts.
      Decimal, date, time and binary values, on which the reasoning and
      composing nodes would raise, are not modelled. */
  datatype Cell = Null | Int(i: int) | Text(s: string) | Bool(b: bool)

  type Row = seq<Cell>

  /** What `SELECT * ... LIMIT n` hands back: the column names from the
      cursor description and the fetched rows. */
  datatype SampleAnswer = SampleAnswer(headers: seq<string>, rows: seq<Row>)

  /** The relational store. `tables` is the base-table listing outside
      `pg_catalog` and `information_schema`, ordered by schema and name;
      every other field answers one query for one table. */
  datatype Db = Db(
    tables: Result<seq<TableId>>,
    columns: TableId -> Result<seq<ColumnInfo>>,
    rowCount: TableId -> Result<int>,
    sample: (TableId, int) -> Result<SampleAnswer>,
    overview: Result<string>)

  /** A store whose sample query honours SQL's `LIMIT`. */
  ghost predicate HonoursLimit(db: Db) {
    forall t: TableId, n: int :: db.sample(t, n).Success? ==> |db.sample(t, n).value.rows| <= n
  }

  /** `(schema, table)` identifies a base table: no pair is listed twice. */
  ghost predicate NoDuplicates(catalog: seq<TableId>) {
    forall i, j :: 0 <= i < j < |catalog| ==> catalog[i] != catalog[j]
  }

  /** The rows of the lookup by table name alone, in catalog order. */
  function WithName(catalog: seq<TableId>, name: string): (r: seq<TableId>)
    ensures |r| <= |catalog|
    ensures forall t :: t in r <==> t in catalog && t.name == name
  {
    if |catalog| == 0 then []
    else (if catalog[0].name == name then [catalog[0]] else []) + WithName(catalog[1..], name)
  }

  /** The rows of the lookup by schema and table name, in catalog order. */
  function WithId(catalog: seq<TableId>, id: TableId): (r: seq<TableId>)
    ensures forall t :: t in r <==> t in catalog && t == id
  {
    if |catalog| == 0 then []
    else (if catalog[0] == id then [catalog[0]] else []) + WithId(catalog[1..], id)
  }

  function SchemasOf(rows: seq<TableId>): (r: seq<string>)
    ensures forall s :: s in r <==> exists t :: t in rows && t.schema == s
  {
    if |rows| == 0 then []
    else
      assert rows[0] in rows;
      [rows[0].schema] + SchemasOf(rows[1..])
  }

  /** The schemas holding a table called `name`, sorted, each once. */
  function SchemasHolding(catalog: seq<TableId>, name: string): (r: seq<string>)
    ensures StrictlySorted(r)
    ensures forall s :: s in r <==> TableId(s, name) in catalog
  {
    var r := SortedSet(SchemasOf(WithName(catalog, name)));
    assert forall s :: TableId(s, name) in catalog ==> TableId(s, name) in WithName(catalog, name);
    r
  }

  function NotFoundMessage(name: string): string {
    "La tabla " + name + " no existe."
  }

  function AmbiguousMessage(name: string, schemas: seq<string>): string {
    "La tabla " + name + " existe en múltiples esquemas: " + Join(schemas, ", ") + ". Especifica el esquema."
  }

  /** The `(schema, table, error)` triple of a resolution. */
  datatype Resolution = Resolution(schema: Option<string>, table: Option<string>, error: Option<string>)

  /** Resolves a user-supplied table token against the catalog. A token with
      exactly one dot names a schema and a table; any other token is looked
      up by table name in every schema. */
  function ResolveTable(rawName: string, catalog: seq<TableId>): (r: Resolution)
    ensures rawName == "" ==> r == Resolution(None, None, None)
    ensures rawName != "" ==> r.table.Some? != r.error.Some?
    ensures r.schema.Some? <==> r.table.Some?
    ensures r.table.Some? ==> TableId(r.schema.value, r.table.value) in catalog
    ensures r.error.Some? ==> |r.error.value| > 0
  {
    if rawName == "" then Resolution(None, None, None)
    else
      var raw := Strip(rawName);
      var parts := Split(raw, '.');
      if |parts| == 2 then
        var rows := WithId(catalog, TableId(parts[0], parts[1]));
        if |rows| > 0 then
          assert rows[0] in rows;
          Resolution(Some(rows[0].schema), Some(rows[0].name), None)
        else Resolution(None, None, Some(NotFoundMessage(raw)))
      else
        var rows := WithName(catalog, raw);
        if |rows| == 0 then Resolution(None, None, Some(NotFoundMessage(raw)))
        else if |rows| > 1 then
          Resolution(None, None, Some(AmbiguousMessage(raw, SortedSet(SchemasOf(rows)))))
        else
          assert rows[0] in rows;
          Resolution(Some(rows[0].schema), Some(rows[0].name), None)
  }

  /** A `schema.table` token resolves exactly when that pair is in the
      catalog, and then to that pair. */
  lemma ResolveQualified(rawName: string, catalog: seq<TableId>)
    requires rawName != ""
    requires |Split(Strip(rawName), '.')| == 2
    ensures var parts := Split(Strip(rawName), '.');
            var id := TableId(parts[0], parts[1]);
            var r := ResolveTable(rawName, catalog);
            && (id in catalog ==> r == Resolution(Some(id.schema), Some(id.name), None))
            && (id !in catalog ==> r == Resolution(None, None, Some(NotFoundMessage(Strip(rawName)))))
  {
    var parts := Split(Strip(rawName), '.');
    var id := TableId(parts[0], parts[1]);
    var rows := WithId(catalog, id);
    if id in catalog {
      assert id in rows;
      assert rows[0] in rows;
    }
  }

  /** An unqualified name that no table carries is reported as missing. */
  lemma ResolveNotFound(rawName: string, catalog: seq<TableId>)
    requires rawName != ""
    requires |Split(Strip(rawName), '.')| != 2
    requires forall t :: t in catalog ==> t.name != Strip(rawName)
    ensures ResolveTable(rawName, catalog) == Resolution(None, None, Some(NotFoundMessage(Strip(rawName))))
  {
  }

  /** An unqualified name carried by exactly one table resolves silently to
      that table. */
  lemma ResolveUnique(rawName: string, catalog: seq<TableId>, t0: TableId)
    requires NoDuplicates(catalog)
    requires rawName != ""
    requires |Split(Strip(rawName), '.')| != 2
    requires t0 in catalog && t0.name == Strip(rawName)
    requires forall t :: t in catalog && t.name == Strip(rawName) ==> t == t0
    ensures ResolveTable(rawName, catalog) == Resolution(Some(t0.schema), Some(t0.name), None)
  {
    var rows := WithName(catalog, Strip(rawName));
    WithNameNoDuplicates(catalog, Strip(rawName));
    assert t0 in rows;
    assert forall i :: 0 <= i < |rows| ==> rows[i] == t0;
    AtMostOneCopy(rows, t0);
  }

  /** A list without repetitions whose elements all equal `t0` has at most
      one element. */
  lemma AtMostOneCopy(rows: seq<TableId>, t0: TableId)
    requires NoDuplicates(rows)
    requires forall i :: 0 <= i < |rows| ==> rows[i] == t0
    ensures |rows| <= 1
  {
    OccurrencesOfConstant(rows, t0);
    OccurrencesWithoutDuplicates(rows, t0);
  }

  function Occurrences(rows: seq<TableId>, t: TableId): nat {
    if |rows| == 0 then 0 else (if rows[0] == t then 1 else 0) + Occurrences(rows[1..], t)
  }

  lemma {:induction false} OccurrencesOfConstant(rows: seq<TableId>, t: TableId)
    requires forall i :: 0 <= i < |rows| ==> rows[i] == t
    ensures Occurrences(rows, t) == |rows|
  {
    if |rows| > 0 {
      OccurrencesOfConstant(rows[1..], t);
    }
  }

  lemma {:induction false} OccurrencesOfAbsent(rows: seq<TableId>, t: TableId)
    requires t !in rows
    ensures Occurrences(rows, t) == 0
  {
    if |rows| > 0 {
      OccurrencesOfAbsent(rows[1..], t);
    }
  }

  lemma {:induction false} OccurrencesWithoutDuplicates(rows: seq<TableId>, t: TableId)
    requires NoDuplicates(rows)
    ensures Occurrences(rows, t) <= 1
  {
    if |rows| > 0 {
      OccurrencesWithoutDuplicates(rows[1..], t);
      if rows[0] == t {
        assert rows[0] !in rows[1..];
        OccurrencesOfAbsent(rows[1..], t);
      }
    }
  }

  /** An unqualified name carried by two different tables is reported as
      ambiguous, listing every schema that holds it, sorted, each once. */
  lemma ResolveAmbiguous(rawName: string, catalog: seq<TableId>, t1: TableId, t2: TableId)
    requires rawName != ""
    requires |Split(Strip(rawName), '.')| != 2
    requires t1 in catalog && t2 in catalog && t1 != t2
    requires t1.name == Strip(rawName) && t2.name == Strip(rawName)
    ensures ResolveTable(rawName, catalog)
         == Resolution(None, None, Some(AmbiguousMessage(Strip(rawName), SchemasHolding(catalog, Strip(rawName)))))
  {
    var rows := WithName(catalog, Strip(rawName));
    assert t1 in rows && t2 in rows;
  }

  lemma {:induction false} WithNameNoDuplicates(catalog: seq<TableId>, name: string)
    requires NoDuplicates(catalog)
    ensures NoDuplicates(WithName(catalog, name))
  {
    if |catalog| > 0 {
      WithNameNoDuplicates(catalog[1..], name);
      var rest := WithName(catalog[1..], name);
      assert catalog[0] !in catalog[1..];
      assert catalog[0] !in rest;
    }
  }

  /** `get_sample_rows`: a requested limit outside `1..100` becomes 5. */
  function ClampLimit(limit: int): (r: int)
    ensures 1 <= r <= 100
    ensures 1 <= limit <= 100 ==> r == limit
    ensures limit <= 0 || limit > 100 ==> r == 5
  {
    if limit <= 0 || limit > 100 then 5 else limit
  }

  function HeaderRow(headers: seq<string>): (r: Row)
    ensures |r| == |headers|
    ensures forall i :: 0 <= i < |r| ==> r[i] == Text(headers[i])
  {
    seq(|headers|, i requires 0 <= i < |headers| => Text(headers[i]))
  }

  /** `get_sample_rows`: the header row followed by the fetched rows, from a
      query whose limit is the clamped one. */
  function GetSampleRows(db: Db, t: TableId, limit: int): (r: Result<seq<Row>>)
    ensures r.Failure? <==> db.sample(t, ClampLimit(limit)).Failure?
    ensures r.Success? ==>
              var answer := db.sample(t, ClampLimit(limit)).value;
              && |r.value| == |answer.rows| + 1
              && r.value[0] == HeaderRow(answer.headers)
              && r.value[1..] == answer.rows
    ensures HonoursLimit(db) && r.Success? ==> |r.value| <= 101
  {
    match db.sample(t, ClampLimit(limit))
    case Failure(e) => Failure(e)
    case Success(answer) => Success([HeaderRow(answer.headers)] + answer.rows)
  }

  /** Python's `dict(zip(headers, row))`: pairs up to the shorter length, a
      later duplicate header overwriting an earlier one. */
  function Zip(headers: Row, row: Row): (m: map<Cell, Cell>)
    ensures forall k :: k in m <==> exists i :: 0 <= i < |headers| && i < |row| && headers[i] == k
    ensures forall i :: 0 <= i < |headers| && i < |row| && LastAt(headers, i, Min(|headers|, |row|))
              ==> m[headers[i]] == row[i]
  {
    ZipPrefix(headers, row, Min(|headers|, |row|))
  }

  function Min(a: int, b: int): int {
    if a <= b then a else b
  }

  /** No header after position `i` (and before `n`) repeats `headers[i]`. */
  predicate LastAt(headers: Row, i: int, n: int)
    requires 0 <= i < n <= |headers|
  {
    forall j :: i < j < n ==> headers[j] != headers[i]
  }

  function ZipPrefix(headers: Row, row: Row, n: nat): (m: map<Cell, Cell>)
    requires n <= |headers| && n <= |row|
    ensures forall k :: k in m <==> exists i :: 0 <= i < n && headers[i] == k
    ensures forall i :: 0 <= i < n && LastAt(headers, i, n) ==> m[headers[i]] == row[i]
  {
    if n == 0 then map[]
    else
      var m := ZipPrefix(headers, row, n - 1);
      var m' := m[headers[n - 1] := row[n - 1]];
      assert forall i :: 0 <= i < n - 1 && LastAt(headers, i, n) ==> LastAt(headers, i, n - 1);
      m'
  }
}

=== FILE: conn_string.dfy ===
/** Reading a .NET-style PostgreSQL connection string ("Host=...;Port=...")
    into the driver's connection settings. Keys are matched without regard
    to case or surrounding blanks, a later key overrides an earlier one, and
    a key given with an empty value counts as absent where the source
    chains alternatives with `or`. */
module ConnString {
  import opened Wrappers
  import opened Strings
  import opened Numerals

  /** The driver settings. `None` is a setting the string did not give. */
  datatype ConnConfig = ConnConfig(
    host: Option<string>,
    database: Option<string>,
    user: Option<string>,
    password: Option<string>,
    port: int,
    sslMode: string)

  /** Each piece stripped. */
  function StripAll(raw: seq<string>): (r: seq<string>)
    ensures |r| == |raw| && forall i :: 0 <= i < |raw| ==> r[i] == Strip(raw[i])
  {
    seq(|raw|, i requires 0 <= i < |raw| => Strip(raw[i]))
  }

  /** The non-empty strings, in order. */
  function NonEmpty(xs: seq<string>): (ys: seq<string>)
    ensures |ys| <= |xs|
    ensures forall i :: 0 <= i < |ys| ==> ys[i] != ""
  {
    if |xs| == 0 then []
    else NonEmpty(xs[..|xs| - 1]) + (if xs[|xs| - 1] != "" then [xs[|xs| - 1]] else [])
  }

  /** The positions of the non-empty strings. */
  function NonEmptyAt(xs: seq<string>): seq<nat> {
    if |xs| == 0 then []
    else NonEmptyAt(xs[..|xs| - 1]) + (if xs[|xs| - 1] != "" then [|xs| - 1] else [])
  }

  /** The positions are those of every non-empty string, each once,
      ascending, and the kept strings are the strings at those positions. */
  lemma {:induction false} NonEmptyPositions(xs: seq<string>)
    ensures var ys, at := NonEmpty(xs), NonEmptyAt(xs);
            && |ys| == |at|
            && (forall k :: 0 <= k < |at| ==> at[k] < |xs| && xs[at[k]] != "" && ys[k] == xs[at[k]])
            && (forall k, l :: 0 <= k < l < |at| ==> at[k] < at[l])
            && (forall j :: 0 <= j < |xs| && xs[j] != "" ==> j in at)
  {
    NonEmptyAtSelects(xs);
    NonEmptyAtAscends(xs);
    NonEmptyAtCovers(xs);
  }

  lemma {:induction false} NonEmptyAtSelects(xs: seq<string>)
    ensures var ys, at := NonEmpty(xs), NonEmptyAt(xs);
            && |ys| == |at|
            && forall k :: 0 <= k < |at| ==> at[k] < |xs| && xs[at[k]] != "" && ys[k] == xs[at[k]]
  {
    if |xs| > 0 {
      var init := xs[..|xs| - 1];
      NonEmptyAtSelects(init);
      var ys, at := NonEmpty(xs), NonEmptyAt(xs);
      var before, beforeAt := NonEmpty(init), NonEmptyAt(init);
      assert ys == before + (if xs[|xs| - 1] != "" then [xs[|xs| - 1]] else []);
      assert at == beforeAt + (if xs[|xs| - 1] != "" then [|xs| - 1] else []);
      forall k | 0 <= k < |before| ensures at[k] < |xs| && xs[at[k]] != "" && ys[k] == xs[at[k]] {
        assert at[k] == beforeAt[k] && ys[k] == before[k];
        assert xs[at[k]] == init[at[k]];
      }
    }
  }

  lemma {:induction false} NonEmptyAtAscends(xs: seq<string>)
    ensures forall k :: 0 <= k < |NonEmptyAt(xs)| ==> NonEmptyAt(xs)[k] < |xs|
    ensures forall k, l :: 0 <= k < l < |NonEmptyAt(xs)| ==> NonEmptyAt(xs)[k] < NonEmptyAt(xs)[l]
  {
    if |xs| > 0 {
      var init := xs[..|xs| - 1];
      NonEmptyAtAscends(init);
      var at, beforeAt := NonEmptyAt(xs), NonEmptyAt(init);
      assert at == beforeAt + (if xs[|xs| - 1] != "" then [|xs| - 1] else []);
    }
  }

  lemma {:induction false} NonEmptyAtCovers(xs: seq<string>)
    ensures forall j :: 0 <= j < |xs| && xs[j] != "" ==> j in NonEmptyAt(xs)
  {
    if |xs| > 0 {
      var init := xs[..|xs| - 1];
      NonEmptyAtCovers(init);
      var at, beforeAt := NonEmptyAt(xs), NonEmptyAt(init);
      assert at == beforeAt + (if xs[|xs| - 1] != "" then [|xs| - 1] else []);
      forall j | 0 <= j < |xs| && xs[j] != "" ensures j in at {
        if j < |xs| - 1 {
          assert init[j] == xs[j];
          assert j in beforeAt;
        }
      }
    }
  }

  /** Each piece stripped, blank pieces dropped. */
  function NonBlank(raw: seq<string>): (parts: seq<string>)
    ensures |parts| <= |raw|
    ensures forall i :: 0 <= i < |parts| ==> parts[i] != ""
  {
    NonEmpty(StripAll(raw))
  }

  /** The positions of the pieces that are not blank once stripped. */
  function NonBlankAt(raw: seq<string>): seq<nat> {
    NonEmptyAt(StripAll(raw))
  }

  /** The kept segments are, in order, the stripped pieces at exactly the
      positions whose piece is not blank once stripped. */
  lemma NonBlankIsAt(raw: seq<string>)
    ensures var parts, at := NonBlank(raw), NonBlankAt(raw);
            && |parts| == |at|
            && (forall k :: 0 <= k < |at| ==> at[k] < |raw| && parts[k] == Strip(raw[at[k]]))
            && (forall k, l :: 0 <= k < l < |at| ==> at[k] < at[l])
            && (forall j :: 0 <= j < |raw| && Strip(raw[j]) != "" ==> j in at)
  {
    var xs := StripAll(raw);
    NonEmptyPositions(xs);
    var parts, at := NonBlank(raw), NonBlankAt(raw);
    assert parts == NonEmpty(xs) && at == NonEmptyAt(xs);
    forall k | 0 <= k < |at| ensures at[k] < |raw| && parts[k] == Strip(raw[at[k]]) {
      assert parts[k] == xs[at[k]];
    }
    forall j | 0 <= j < |raw| && Strip(raw[j]) != "" ensures j in at {
      assert xs[j] != "";
    }
  }

  /** A piece that is non-empty and its own stripped form. */
  predicate PlainSegment(p: string) {
    p != "" && Strip(p) == p
  }

  /** Pieces that are all non-blank and already stripped pass unchanged. */
  lemma NonBlankOfPlain(raw: seq<string>)
    requires forall i :: 0 <= i < |raw| ==> PlainSegment(raw[i])
    ensures NonBlank(raw) == raw
  {
    assert StripAll(raw) == raw;
    NonEmptyOfNonEmpty(raw);
  }

  /** Strings that are all non-empty are all kept. */
  lemma {:induction false} NonEmptyOfNonEmpty(xs: seq<string>)
    requires forall i :: 0 <= i < |xs| ==> xs[i] != ""
    ensures NonEmpty(xs) == xs
  {
    if |xs| > 0 {
      NonEmptyOfNonEmpty(xs[..|xs| - 1]);
      assert xs[..|xs| - 1] + [xs[|xs| - 1]] == xs;
    }
  }

  /** The non-blank `;`-separated segments of the string, each stripped. */
  function Segments(conn: string): seq<string> {
    NonBlank(Split(Strip(conn), ';'))
  }

  /** A segment with an `=` gives the key before the first `=`, stripped and
      lower-cased, and the stripped value after it; any other segment is
      skipped. */
  function Entry(p: string): (e: Option<(string, string)>)
    ensures e.Some? <==> '=' in p
    ensures e.Some? ==> forall i :: 0 <= i < |e.value.0| ==> !IsUpper(e.value.0[i])
    ensures e.Some? ==> exists i :: 0 <= i < |p| && p[i] == '=' && '=' !in p[..i]
                                    && e.value == (Lower(Strip(p[..i])), Strip(p[i + 1..]))
  {
    if '=' in p then
      var i := IndexOf(p, '=');
      Some((Lower(Strip(p[..i])), Strip(p[i + 1..])))
    else None
  }

  /** The entries of the segments, in order. */
  function EntriesOf(parts: seq<string>): (es: seq<Option<(string, string)>>)
    ensures |es| == |parts| && forall i :: 0 <= i < |parts| ==> es[i] == Entry(parts[i])
  {
    seq(|parts|, i requires 0 <= i < |parts| => Entry(parts[i]))
  }

  predicate HasKey(e: Option<(string, string)>, k: string) {
    e.Some? && e.value.0 == k
  }

  /** The settings map built entry by entry; a later key overwrites. */
  function Assign(es: seq<Option<(string, string)>>): map<string, string> {
    if |es| == 0 then map[]
    else
      var kv := Assign(es[..|es| - 1]);
      match es[|es| - 1]
      case None => kv
      case Some((k, v)) => kv[k := v]
  }

  /** `v` is the value of the last entry with key `k`. */
  predicate LastEntryFor(es: seq<Option<(string, string)>>, k: string, v: string) {
    exists i :: 0 <= i < |es| && es[i] == Some((k, v))
                && forall j :: i < j < |es| ==> !HasKey(es[j], k)
  }

  /** Every key of an entry is in the map. */
  lemma {:induction false} AssignHasKeys(es: seq<Option<(string, string)>>)
    ensures forall i :: 0 <= i < |es| && es[i].Some? ==> es[i].value.0 in Assign(es)
  {
    if |es| > 0 {
      var init := es[..|es| - 1];
      AssignHasKeys(init);
      forall i | 0 <= i < |es| - 1 && es[i].Some? ensures es[i].value.0 in Assign(es) {
        assert es[i] == init[i];
      }
    }
  }

  /** The map holds for each key the value of the last entry with that key. */
  lemma {:induction false} AssignLastWins(es: seq<Option<(string, string)>>)
    ensures forall k :: k in Assign(es) ==> LastEntryFor(es, k, Assign(es)[k])
  {
    if |es| > 0 {
      var init := es[..|es| - 1];
      var last := es[|es| - 1];
      AssignLastWins(init);
      var before := Assign(init);
      var kv := Assign(es);
      forall k | k in kv ensures LastEntryFor(es, k, kv[k]) {
        if HasKey(last, k) {
          assert es[|es| - 1] == Some((k, kv[k]));
        } else {
          assert k in before && kv[k] == before[k];
          LastEntryExtends(es, k, kv[k]);
        }
      }
    }
  }

  /** An entry that is the last one for its key among all but the final
      entry stays the last one when the final entry has another key. */
  lemma LastEntryExtends(es: seq<Option<(string, string)>>, k: string, v: string)
    requires |es| > 0 && !HasKey(es[|es| - 1], k)
    requires LastEntryFor(es[..|es| - 1], k, v)
    ensures LastEntryFor(es, k, v)
  {
    var init := es[..|es| - 1];
    var i :| 0 <= i < |init| && init[i] == Some((k, v)) && forall j :: i < j < |init| ==> !HasKey(init[j], k);
    assert es[i] == init[i];
    forall j | i < j < |es| ensures !HasKey(es[j], k) {
      if j < |es| - 1 {
        assert es[j] == init[j];
      }
    }
  }

  /** The settings map of a connection string. */
  function Settings(conn: string): map<string, string> {
    Assign(EntriesOf(Segments(conn)))
  }

  function Get(kv: map<string, string>, k: string): Option<string> {
    if k in kv then Some(kv[k]) else None
  }

  /** Python's `a or b` on optional strings: a missing or empty `a` gives `b`. */
  function Or(a: Option<string>, b: Option<string>): (r: Option<string>)
    ensures a.Some? && a.value != "" ==> r == a
    ensures (a.None? || a.value == "") ==> r == b
  {
    if a.Some? && a.value != "" then a else b
  }

  const DefaultPort := "5432"
  const DefaultSslMode := "require"

  /** The SSL mode: the first of its two keys with a non-empty value,
      lower-cased, and "require" when neither has one. */
  function SslModeOf(kv: map<string, string>): (m: string)
    ensures m != "" && forall i :: 0 <= i < |m| ==> !IsUpper(m[i])
    ensures ("ssl mode" !in kv || kv["ssl mode"] == "") && ("sslmode" !in kv || kv["sslmode"] == "") ==>
              m == DefaultSslMode
    ensures "ssl mode" in kv && kv["ssl mode"] != "" ==> m == Lower(kv["ssl mode"])
    ensures ("ssl mode" !in kv || kv["ssl mode"] == "") && "sslmode" in kv && kv["sslmode"] != "" ==>
              m == Lower(kv["sslmode"])
  {
    var chosen := Or(Get(kv, "ssl mode"), Or(Get(kv, "sslmode"), Some(DefaultSslMode)));
    LowerOfLower(DefaultSslMode);
    Lower(chosen.value)
  }

  /** The port: the `port` value read as an integer, 5432 when absent. */
  function PortOf(kv: map<string, string>): (r: Result<int>)
    ensures "port" in kv ==> r == ParseInt(kv["port"])
    ensures "port" !in kv ==> r == Success(5432)
  {
    DefaultPortValue();
    ParseInt(Get(kv, "port").GetOr(DefaultPort))
  }

  /** The driver settings for a settings map. Host, database and user take
      the first alternative key with a non-empty value; the port is read as
      an integer, 5432 when absent, and a port that is not an integer
      literal is the one error; the SSL mode is lower-cased and "require"
      unless one of its two keys has a non-empty value. */
  function FromSettings(kv: map<string, string>): (r: Result<ConnConfig>)
    ensures r.Failure? <==> "port" in kv && ParseInt(kv["port"]).Failure?
    ensures r.Success? ==> Success(r.value.port) == PortOf(kv)
    ensures r.Success? ==> r.value.password == Get(kv, "password")
    ensures r.Success? && "host" in kv && kv["host"] != "" ==> r.value.host == Some(kv["host"])
    ensures r.Success? && "host" !in kv && "server" !in kv ==> r.value.host.None?
    ensures r.Success? && ("host" !in kv || kv["host"] == "") ==> r.value.host == Get(kv, "server")
    ensures r.Success? && "database" in kv && kv["database"] != "" ==> r.value.database == Some(kv["database"])
    ensures r.Success? && ("database" !in kv || kv["database"] == "") ==> r.value.database == Get(kv, "dbname")
    ensures r.Success? && "username" in kv && kv["username"] != "" ==> r.value.user == Some(kv["username"])
    ensures r.Success? && ("username" !in kv || kv["username"] == "") && "user id" in kv && kv["user id"] != "" ==>
              r.value.user == Some(kv["user id"])
    ensures r.Success? && ("username" !in kv || kv["username"] == "") && ("user id" !in kv || kv["user id"] == "") ==>
              r.value.user == Get(kv, "user")
    ensures r.Success? ==> r.value.sslMode == SslModeOf(kv)
  {
    var host := Or(Get(kv, "host"), Get(kv, "server"));
    var database := Or(Get(kv, "database"), Get(kv, "dbname"));
    var user := Or(Get(kv, "username"), Or(Get(kv, "user id"), Get(kv, "user")));
    var password := Get(kv, "password");
    match PortOf(kv)
    case Failure(e) => Failure(e)
    case Success(port) => Success(ConnConfig(host, database, user, password, port, SslModeOf(kv)))
  }

  /** Reading a .NET-style connection string. */
  function ParseConnString(conn: string): Result<ConnConfig> {
    FromSettings(Settings(conn))
  }

  /** The default port text reads as 5432. */
  lemma DefaultPortValue()
    ensures ParseInt(DefaultPort) == Success(5432)
  {
    ParseDigits(DefaultPort);
    DefaultPortDigits();
  }

  lemma DefaultPortDigits()
    ensures forall i :: 0 <= i < |DefaultPort| ==> IsDigit(DefaultPort[i])
    ensures DigitsValue(DefaultPort) == 5432
  {
    assert DefaultPort[..3] == "543" && "543"[..2] == "54" && "54"[..1] == "5" && "5"[..0] == "";
    assert DigitsValue("5") == 5;
    assert DigitsValue("54") == 54;
    assert DigitsValue("543") == 543;
  }

  /** Settings without a port give port 5432 and never an error. */
  lemma PortDefaults(kv: map<string, string>)
    requires "port" !in kv
    ensures FromSettings(kv).Success? && FromSettings(kv).value.port == 5432
  {
    DefaultPortValue();
  }

  /** A value that survives a round trip: non-empty, free of `;` and not
      starting or ending with a blank. */
  predicate PlainValue(v: string) {
    v != "" && ';' !in v && !IsSpace(v[0]) && !IsSpace(v[|v| - 1])
  }

  /** Settings that a connection string can state exactly. */
  predicate Renderable(c: ConnConfig) {
    && c.host.Some? && PlainValue(c.host.value)
    && c.database.Some? && PlainValue(c.database.value)
    && c.user.Some? && PlainValue(c.user.value)
    && c.password.Some? && PlainValue(c.password.value)
    && PlainValue(c.sslMode) && forall i :: 0 <= i < |c.sslMode| ==> !IsUpper(c.sslMode[i])
  }

  /** The segments of the string written for `c`, with the capitalised key
      spellings the .NET driver uses. */
  function Fields(c: ConnConfig): seq<string>
    requires Renderable(c)
  {
    [Field(FieldName(0), c.host.value), Field(FieldName(1), c.database.value), Field(FieldName(2), c.user.value),
     Field(FieldName(3), c.password.value), Field(FieldName(4), IntToString(c.port)), Field(FieldName(5), c.sslMode)]
  }

  function Render(c: ConnConfig): string
    requires Renderable(c)
  {
    Join(Fields(c), ";")
  }

  /** The segment `key=value`. */
  function Field(key: string, v: string): string {
    key + "=" + v
  }

  /** A segment `key=value` with a plain key and a plain value is its own
      stripped form, holds no `;`, and reads as the lower-cased key and the
      value. */
  lemma EntryOfField(key: string, v: string)
    requires key != "" && '=' !in key && ';' !in key && !IsSpace(key[0]) && !IsSpace(key[|key| - 1])
    requires PlainValue(v)
    ensures var p := Field(key, v);
            && p != "" && ';' !in p && Strip(p) == p
            && Entry(p) == Some((Lower(key), v))
  {
    var p := Field(key, v);
    assert p[..|key|] == key;
    assert p[|key| + 1..] == v;
    forall j | 0 <= j < |p| ensures p[j] != ';' {
      if j < |key| {
        assert p[j] == key[j];
      } else if j > |key| {
        assert p[j] == v[j - |key| - 1];
      }
    }
    IndexOfAfter(p, '=', |key|);
    StripUnbordered(key);
    StripUnbordered(v);
    assert p[0] == key[0] && p[|p| - 1] == v[|v| - 1];
    StripUnbordered(p);
  }

  /** The text a configuration's port is written as is a plain value. */
  lemma PortTextPlain(port: int)
    ensures PlainValue(IntToString(port))
  {
    var t := IntToString(port);
    assert forall j :: 0 <= j < |t| ==> t[j] != ';';
  }

  /** The key spellings written for the six settings. */
  function FieldName(i: int): (name: string)
    requires 0 <= i < 6
    ensures name != "" && '=' !in name && ';' !in name && !IsSpace(name[0]) && !IsSpace(name[|name| - 1])
  {
    ["Host", "Database", "Username", "Password", "Port", "SSL Mode"][i]
  }

  /** Each written key reads back, lower-cased, as the key the settings use. */
  lemma FieldKeyLower(i: int)
    requires 0 <= i < 6
    ensures Lower(FieldName(i)) == FieldKey(i)
  {
    var name, key := FieldName(i), FieldKey(i);
    assert |name| == |key|;
    forall j | 0 <= j < |name| ensures LowerChar(name[j]) == key[j] {
    }
  }

  /** The `i`-th field is a plain segment without `;` that reads back as its
      key and value. */
  lemma FieldPlain(c: ConnConfig, i: int)
    requires Renderable(c) && 0 <= i < 6
    ensures PlainSegment(Fields(c)[i]) && ';' !in Fields(c)[i]
    ensures Entry(Fields(c)[i]) == Some((FieldKey(i), FieldValue(c, i)))
  {
    PortTextPlain(c.port);
    assert Fields(c)[i] == Field(FieldName(i), FieldValue(c, i));
    EntryOfField(FieldName(i), FieldValue(c, i));
    FieldKeyLower(i);
  }

  /** Every field is a plain segment without `;` that reads back as its key
      and value. */
  lemma FieldsPlain(c: ConnConfig)
    requires Renderable(c)
    ensures forall i :: 0 <= i < 6 ==> PlainSegment(Fields(c)[i]) && ';' !in Fields(c)[i]
    ensures forall i :: 0 <= i < 6 ==> Entry(Fields(c)[i]) == Some((FieldKey(i), FieldValue(c, i)))
  {
    forall i | 0 <= i < 6
      ensures PlainSegment(Fields(c)[i]) && ';' !in Fields(c)[i]
      ensures Entry(Fields(c)[i]) == Some((FieldKey(i), FieldValue(c, i)))
    {
      FieldPlain(c, i);
    }
  }

  /** The string written for a configuration has no blank on its borders. */
  lemma RenderUnbordered(c: ConnConfig)
    requires Renderable(c)
    requires forall i :: 0 <= i < 6 ==> PlainSegment(Fields(c)[i])
    ensures Strip(Render(c)) == Render(c)
  {
    var fields := Fields(c);
    JoinEnds(fields, ";");
    var first := fields[0];
    var last := fields[5];
    assert PlainSegment(first) && PlainSegment(last);
    assert !IsSpace(first[0]) && !IsSpace(last[|last| - 1]);
    StripUnbordered(Render(c));
  }

  /** The segments of the string written for a configuration are its fields. */
  lemma SegmentsOfRender(c: ConnConfig)
    requires Renderable(c)
    ensures Segments(Render(c)) == Fields(c)
    ensures forall i :: 0 <= i < 6 ==> Entry(Fields(c)[i]) == Some((FieldKey(i), FieldValue(c, i)))
  {
    FieldsPlain(c);
    RenderUnbordered(c);
    SplitJoin(Fields(c), ';');
    NonBlankOfPlain(Fields(c));
  }

  /** The key read back from the `i`-th field. */
  function FieldKey(i: int): string
    requires 0 <= i < 6
  {
    if i == 0 then "host" else if i == 1 then "database" else if i == 2 then "username"
    else if i == 3 then "password" else if i == 4 then "port" else "ssl mode"
  }

  /** The value read back from the `i`-th field. */
  function FieldValue(c: ConnConfig, i: int): string
    requires Renderable(c) && 0 <= i < 6
  {
    [c.host.value, c.database.value, c.user.value, c.password.value, IntToString(c.port), c.sslMode][i]
  }

  /** The six keys read back are pairwise different. */
  lemma FieldKeysDistinct(i: int, j: int)
    requires 0 <= i < 6 && 0 <= j < 6 && i != j
    ensures FieldKey(i) != FieldKey(j)
  {
    var a, b := FieldKey(i), FieldKey(j);
    assert |a| != |b| || a[0] != b[0];
  }

  /** The map built from the fields' entries holds each field's value under
      its key. */
  lemma FieldsAssigned(c: ConnConfig)
    requires Renderable(c)
    ensures var kv := Assign(EntriesOf(Fields(c)));
            forall i :: 0 <= i < 6 ==> FieldKey(i) in kv && kv[FieldKey(i)] == FieldValue(c, i)
  {
    FieldsPlain(c);
    var es := EntriesOf(Fields(c));
    AssignHasKeys(es);
    AssignLastWins(es);
    forall i | 0 <= i < 6
      ensures FieldKey(i) in Assign(es) && Assign(es)[FieldKey(i)] == FieldValue(c, i)
    {
      forall j | 0 <= j < |es| && j != i ensures !HasKey(es[j], FieldKey(i)) {
        FieldKeysDistinct(i, j);
      }
      OnlyEntryFor(es, FieldKey(i), FieldValue(c, i), i);
    }
  }

  /** The settings map of the string written for a configuration holds each
      field's value under its key. */
  lemma SettingsOfRender(c: ConnConfig)
    requires Renderable(c)
    ensures forall i :: 0 <= i < 6 ==> FieldKey(i) in Settings(Render(c)) && Settings(Render(c))[FieldKey(i)] == FieldValue(c, i)
  {
    SegmentsOfRender(c);
    FieldsAssigned(c);
  }

  /** Settings holding a configuration's values under the keys its string
      uses give back that configuration. */
  lemma FromWrittenSettings(kv: map<string, string>, c: ConnConfig)
    requires Renderable(c)
    requires "host" in kv && kv["host"] == c.host.value
    requires "database" in kv && kv["database"] == c.database.value
    requires "username" in kv && kv["username"] == c.user.value
    requires "password" in kv && kv["password"] == c.password.value
    requires "port" in kv && kv["port"] == IntToString(c.port)
    requires "ssl mode" in kv && kv["ssl mode"] == c.sslMode
    ensures FromSettings(kv) == Success(c)
  {
    ParseIntOfIntToString(c.port);
    WrittenSslMode(kv, c.sslMode);
    assert Or(Get(kv, "host"), Get(kv, "server")) == c.host;
    assert Or(Get(kv, "database"), Get(kv, "dbname")) == c.database;
    assert Or(Get(kv, "username"), Or(Get(kv, "user id"), Get(kv, "user"))) == c.user;
  }

  /** A plain lower-case SSL mode under "ssl mode" is read as it is. */
  lemma WrittenSslMode(kv: map<string, string>, m: string)
    requires "ssl mode" in kv && kv["ssl mode"] == m
    requires m != "" && forall i :: 0 <= i < |m| ==> !IsUpper(m[i])
    ensures SslModeOf(kv) == m
  {
    LowerOfLower(m);
  }

  /** A map holding each field's value under its key holds the values under
      the keys the settings are read from. */
  lemma WrittenKeys(kv: map<string, string>, c: ConnConfig)
    requires Renderable(c)
    requires forall i :: 0 <= i < 6 ==> FieldKey(i) in kv && kv[FieldKey(i)] == FieldValue(c, i)
    ensures "host" in kv && kv["host"] == c.host.value
    ensures "database" in kv && kv["database"] == c.database.value
    ensures "username" in kv && kv["username"] == c.user.value
    ensures "password" in kv && kv["password"] == c.password.value
    ensures "port" in kv && kv["port"] == IntToString(c.port)
    ensures "ssl mode" in kv && kv["ssl mode"] == c.sslMode
  {
    assert FieldKey(0) == "host" && FieldValue(c, 0) == c.host.value;
    assert FieldKey(1) == "database" && FieldValue(c, 1) == c.database.value;
    assert FieldKey(2) == "username" && FieldValue(c, 2) == c.user.value;
    assert FieldKey(3) == "password" && FieldValue(c, 3) == c.password.value;
    assert FieldKey(4) == "port" && FieldValue(c, 4) == IntToString(c.port);
    assert FieldKey(5) == "ssl mode" && FieldValue(c, 5) == c.sslMode;
  }

  /** Writing a configuration as a connection string and reading it back
      gives the configuration. */
  lemma ParseRender(c: ConnConfig)
    requires Renderable(c)
    ensures ParseConnString(Render(c)) == Success(c)
  {
    var kv := Settings(Render(c));
    SettingsOfRender(c);
    WrittenKeys(kv, c);
    FromWrittenSettings(kv, c);
  }

  /** When exactly one entry has key `k`, the map holds its value. */
  lemma OnlyEntryFor(es: seq<Option<(string, string)>>, k: string, v: string, i: int)
    requires forall i' :: 0 <= i' < |es| && es[i'].Some? ==> es[i'].value.0 in Assign(es)
    requires forall k' :: k' in Assign(es) ==> LastEntryFor(es, k', Assign(es)[k'])
    requires 0 <= i < |es| && es[i] == Some((k, v))
    requires forall j :: 0 <= j < |es| && j != i ==> !HasKey(es[j], k)
    ensures k in Assign(es) && Assign(es)[k] == v
  {
    var kv := Assign(es);
    assert k in kv by {
      assert es[i].value.0 == k;
    }
    var j :| 0 <= j < |es| && es[j] == Some((k, kv[k]))
             && forall j' :: j < j' < |es| ==> !HasKey(es[j'], k);
    assert HasKey(es[j], k);
  }
}

=== FILE: executor.dfy ===
/** The plan executor: the one place where the role is enforced against
    global metadata, whatever the planner produced; then every step of the
    plan runs in order, each leaving a result or an error record. */
module Executor {
  import opened Wrappers
  import opened Catalog
  import opened AgentState

  /** `action.get("table") or extract_table_mention(user_text)`, with ""
      standing for no name at all. */
  function TableToken(a: Action, userText: string, extract: string -> Option<string>): string {
    if a.table.Some? && a.table.value != "" then a.table.value else extract(userText).GetOr("")
  }

  /** `int(action.get("limit") or 5)`: a missing or zero limit reads as 5. */
  function EffectiveLimit(limit: Option<int>): int {
    if limit.Some? && limit.value != 0 then limit.value else 5
  }

  const MissingTable := "Tabla no especificada"

  /** Each fetched row as a mapping from header to value; the first row of
      `rows` is the header row. */
  function RecordsOf(rows: seq<Row>): (records: seq<map<Cell, Cell>>)
    ensures |rows| > 0 ==> |records| == |rows| - 1
    ensures |rows| > 0 ==> forall i :: 0 <= i < |records| ==> records[i] == Zip(rows[0], rows[i + 1])
  {
    if |rows| == 0 then []
    else seq(|rows| - 1, i requires 0 <= i < |rows| - 1 => Zip(rows[0], rows[i + 1]))
  }

  /** A global step: the overview text, the table count, or the qualified
      table names. */
  function RunGlobal(kind: string, db: Db): (r: Result<DbResult>)
    requires IsGlobal(kind)
    ensures r.Success? ==> r.value.Done? && r.value.table.None? && r.value.Action() == kind
    ensures kind == "overview" ==> (r.Failure? <==> db.overview.Failure?)
    ensures kind == "overview" && r.Success? ==> r.value.result == OverviewText(db.overview.value)
    ensures kind == "overview" && r.Failure? ==> r.error == db.overview.error
    ensures kind != "overview" ==> (r.Failure? <==> db.tables.Failure?)
    ensures kind != "overview" && r.Failure? ==> r.error == db.tables.error
    ensures kind == "count_tables" && r.Success? ==> r.value.result == TableCount(|db.tables.value|)
    ensures kind == "list_tables" && r.Success? ==>
              var names := r.value.result.names;
              && |names| == |db.tables.value|
              && forall i :: 0 <= i < |names| ==> names[i] == Qualified(db.tables.value[i])
  {
    if kind == "overview" then
      match db.overview
      case Failure(e) => Failure(e)
      case Success(text) => Success(Done(None, OverviewText(text)))
    else
      match db.tables
      case Failure(e) => Failure(e)
      case Success(ts) =>
        if kind == "count_tables" then Success(Done(None, TableCount(|ts|)))
        else Success(Done(None, TableNames(seq(|ts|, i requires 0 <= i < |ts| => Qualified(ts[i])))))
  }

  /** A table-scoped step on a resolved table. */
  function RunOnTable(kind: string, t: TableId, limit: Option<int>, db: Db): (r: Result<DbResult>)
    requires IsTableScoped(kind)
    ensures r.Success? ==> r.value.Done? && r.value.table == Some(Qualified(t)) && r.value.Action() == kind
    ensures kind == "columns" ==> (r.Failure? <==> db.columns(t).Failure?)
    ensures kind == "columns" && r.Success? ==> r.value.result == Columns(db.columns(t).value)
    ensures kind == "columns" && r.Failure? ==> r.error == db.columns(t).error
    ensures kind == "rowcount" ==> (r.Failure? <==> db.rowCount(t).Failure?)
    ensures kind == "rowcount" && r.Success? ==> r.value.result == RowCount(db.rowCount(t).value)
    ensures kind == "rowcount" && r.Failure? ==> r.error == db.rowCount(t).error
    ensures kind == "sample" ==> (r.Failure? <==> GetSampleRows(db, t, EffectiveLimit(limit)).Failure?)
    ensures kind == "sample" && r.Success? ==>
              r.value.result == Records(RecordsOf(GetSampleRows(db, t, EffectiveLimit(limit)).value))
    ensures kind == "sample" && r.Failure? ==> r.error == GetSampleRows(db, t, EffectiveLimit(limit)).error
  {
    if kind == "columns" then
      match db.columns(t)
      case Failure(e) => Failure(e)
      case Success(cols) => Success(Done(Some(Qualified(t)), Columns(cols)))
    else if kind == "rowcount" then
      match db.rowCount(t)
      case Failure(e) => Failure(e)
      case Success(n) => Success(Done(Some(Qualified(t)), RowCount(n)))
    else
      match GetSampleRows(db, t, EffectiveLimit(limit))
      case Failure(e) => Failure(e)
      case Success(rows) => Success(Done(Some(Qualified(t)), Records(RecordsOf(rows))))
  }

  /** A table-scoped step: no table token, or a token that does not resolve,
      is recorded as an error of that step. */
  function RunScoped(kind: string, raw: string, limit: Option<int>, db: Db): (r: Result<DbResult>)
    requires IsTableScoped(kind)
    ensures r.Success? ==> r.value.Action() == kind
    ensures raw == "" ==> r == Success(Error(kind, MissingTable))
    ensures raw != "" && db.tables.Success? && ResolveTable(raw, db.tables.value).error.Some? ==>
              r == Success(Error(kind, ResolveTable(raw, db.tables.value).error.value))
    ensures raw != "" && db.tables.Failure? ==> r == Failure(db.tables.error)
    ensures raw != "" && db.tables.Success? && ResolveTable(raw, db.tables.value).error.None? ==>
              var res := ResolveTable(raw, db.tables.value);
              && res.schema.Some? && res.table.Some?
              && r == RunOnTable(kind, TableId(res.schema.value, res.table.value), limit, db)
  {
    if raw == "" then Success(Error(kind, MissingTable))
    else
      match db.tables
      case Failure(e) => Failure(e)
      case Success(ts) =>
        var res := ResolveTable(raw, ts);
        if res.error.Some? then Success(Error(kind, res.error.value))
        else RunOnTable(kind, TableId(res.schema.value, res.table.value), limit, db)
  }

  /** Runs one step. An unknown kind leaves no record; a known kind leaves
      exactly one, whose action is the step's kind; an exception escaping a
      query is a `Failure`. */
  function RunAction(a: Action, userText: string, extract: string -> Option<string>, db: Db)
    : (r: Result<Option<DbResult>>)
    ensures !IsKnownKind(a.kind) ==> r == Success(None)
    ensures r.Success? && IsKnownKind(a.kind) ==> r.value.Some? && r.value.value.Action() == a.kind
    ensures r.Success? && r.value.Some? && r.value.value.Error? ==> IsTableScoped(a.kind)
    ensures IsGlobal(a.kind) ==>
              var run := RunGlobal(a.kind, db);
              && (r.Failure? <==> run.Failure?)
              && (r.Failure? ==> r.error == run.error)
              && (r.Success? ==> r.value == Some(run.value))
    ensures IsTableScoped(a.kind) ==>
              var run := RunScoped(a.kind, TableToken(a, userText, extract), a.limit, db);
              && (r.Failure? <==> run.Failure?)
              && (r.Failure? ==> r.error == run.error)
              && (r.Success? ==> r.value == Some(run.value))
  {
    if IsGlobal(a.kind) then
      match RunGlobal(a.kind, db)
      case Failure(e) => Failure(e)
      case Success(entry) => Success(Some(entry))
    else if IsTableScoped(a.kind) then
      match RunScoped(a.kind, TableToken(a, userText, extract), a.limit, db)
      case Failure(e) => Failure(e)
      case Success(entry) => Success(Some(entry))
    else Success(None)
  }

  /** The kinds of the steps that leave a record, in plan order. */
  function KnownKinds(actions: seq<Action>): seq<string> {
    if |actions| == 0 then []
    else (if IsKnownKind(actions[0].kind) then [actions[0].kind] else []) + KnownKinds(actions[1..])
  }

  /** The `action` field of every record, in order. */
  function ActionsOf(results: seq<DbResult>): (kinds: seq<string>)
    ensures |kinds| == |results|
    ensures forall i :: 0 <= i < |results| ==> kinds[i] == results[i].Action()
  {
    if |results| == 0 then [] else [results[0].Action()] + ActionsOf(results[1..])
  }

  /** Records the executor can produce: error records only for steps that
      need a table. */
  predicate WellFormedResults(results: seq<DbResult>) {
    forall i :: 0 <= i < |results| ==> results[i].Error? ==> IsTableScoped(results[i].kind)
  }

  /** Runs the steps in order. On success there is one record per step of a
      known kind, in plan order; the first exception aborts the whole run
      and is the one reported. */
  function ExecuteActions(actions: seq<Action>, userText: string, extract: string -> Option<string>, db: Db)
    : (r: Result<seq<DbResult>>)
    ensures r.Success? ==> ActionsOf(r.value) == KnownKinds(actions)
    ensures r.Success? ==> WellFormedResults(r.value)
    ensures r.Failure? ==>
              exists i :: 0 <= i < |actions| && RunAction(actions[i], userText, extract, db) == Failure(r.error)
                          && forall j :: 0 <= j < i ==> RunAction(actions[j], userText, extract, db).Success?
    ensures (forall i :: 0 <= i < |actions| ==> RunAction(actions[i], userText, extract, db).Success?) ==> r.Success?
  {
    if |actions| == 0 then Success([])
    else
      match RunAction(actions[0], userText, extract, db)
      case Failure(e) => Failure(e)
      case Success(first) =>
        var rest := ExecuteActions(actions[1..], userText, extract, db);
        if rest.Failure? then
          assert forall i :: 1 <= i < |actions| ==> actions[1..][i - 1] == actions[i];
          Failure(rest.error)
        else
          var entries := (if first.Some? then [first.value] else []) + rest.value;
          assert ActionsOf(entries) == (if first.Some? then [first.value.Action()] else []) + ActionsOf(rest.value);
          Success(entries)
  }

  /** Every step runs and its record, if any, sits right after the records of
      the known steps before it: an error record for one step does not stop
      or displace the steps after it. */
  lemma {:induction false} ExecutedInPlanOrder(actions: seq<Action>, userText: string,
                                               extract: string -> Option<string>, db: Db, i: int)
    requires ExecuteActions(actions, userText, extract, db).Success?
    requires 0 <= i < |actions|
    ensures RunAction(actions[i], userText, extract, db).Success?
    ensures var entry := RunAction(actions[i], userText, extract, db).value;
            var results := ExecuteActions(actions, userText, extract, db).value;
            var k := |KnownKinds(actions[..i])|;
            entry.Some? ==> k < |results| && results[k] == entry.value
  {
    ExecuteActionsCons(actions, userText, extract, db);
    if i > 0 {
      ExecutedInPlanOrder(actions[1..], userText, extract, db, i - 1);
      KnownKindsCons(actions, i);
    }
  }

  /** A successful run is the first step's record, if any, followed by the
      successful run of the rest. */
  lemma ExecuteActionsCons(actions: seq<Action>, userText: string, extract: string -> Option<string>, db: Db)
    requires ExecuteActions(actions, userText, extract, db).Success? && |actions| > 0
    ensures var first := RunAction(actions[0], userText, extract, db);
            var rest := ExecuteActions(actions[1..], userText, extract, db);
            && first.Success? && rest.Success?
            && ExecuteActions(actions, userText, extract, db).value
               == (if first.value.Some? then [first.value.value] else []) + rest.value
  {
  }

  /** The known kinds before step `i` are the first step's, if known, then
      those of the rest before it. */
  lemma KnownKindsCons(actions: seq<Action>, i: int)
    requires 0 < i <= |actions|
    ensures KnownKinds(actions[..i])
            == (if IsKnownKind(actions[0].kind) then [actions[0].kind] else []) + KnownKinds(actions[1..][..i - 1])
  {
    assert actions[..i][1..] == actions[1..][..i - 1];
  }

  /** A table-scoped step that names no table, or whose table does not
      resolve, is recorded as that step's error at its place in the records. */
  lemma UnresolvedTableRecorded(actions: seq<Action>, userText: string,
                                extract: string -> Option<string>, db: Db, i: int)
    requires ExecuteActions(actions, userText, extract, db).Success?
    requires 0 <= i < |actions| && IsTableScoped(actions[i].kind)
    ensures var results := ExecuteActions(actions, userText, extract, db).value;
            var k := |KnownKinds(actions[..i])|;
            var token := TableToken(actions[i], userText, extract);
            && k < |results|
            && (token == "" ==> results[k] == Error(actions[i].kind, MissingTable))
            && (token != "" && db.tables.Success? && ResolveTable(token, db.tables.value).error.Some? ==>
                  results[k] == Error(actions[i].kind, ResolveTable(token, db.tables.value).error.value))
  {
    ExecutedInPlanOrder(actions, userText, extract, db, i);
  }

  const GlobalDenial := "❌ No tienes permisos para consultar metadatos globales de BD."

  /** The role check done before anything runs: a role other than staff may
      not plan any global step. */
  predicate Refused(s: State) {
    var plan := s.plan.GetOr(NoPlan);
    !IsPrivileged(s.userRole) && exists i :: 0 <= i < |plan.actions| && IsGlobal(plan.actions[i].kind)
  }

  function DbErrorReply(e: string): string {
    "Error al consultar la BD: " + e
  }

  /** The execution node. A refused plan runs no query: the history becomes
      the single denial and the records stay as they were, whatever the
      store holds. Otherwise the records replace `db_results`, or a query
      exception replaces the history with an error reply. Staff aside, no
      record of a fresh run is a global one. */
  function ExecuteNode(s: State, extract: string -> Option<string>, db: Db): (r: State)
    ensures Refused(s) ==> r == s.(messages := [Ai(GlobalDenial)])
    ensures r == s.(messages := r.messages) || r == s.(dbResults := r.dbResults)
    ensures r.dbResults != s.dbResults ==>
              && r.dbResults.Some?
              && WellFormedResults(r.dbResults.value)
              && ActionsOf(r.dbResults.value) == KnownKinds(s.plan.GetOr(NoPlan).actions)
    ensures r.dbResults != s.dbResults && !IsPrivileged(s.userRole) ==>
              forall i :: 0 <= i < |r.dbResults.value| ==> !IsGlobal(r.dbResults.value[i].Action())
    ensures !Refused(s) ==>
              var run := ExecuteActions(s.plan.GetOr(NoPlan).actions, LastUserMessage(s.messages), extract, db);
              && (run.Success? ==> r == s.(dbResults := Some(run.value)))
              && (run.Failure? ==> r == s.(messages := [Ai(DbErrorReply(run.error))]))
  {
    var plan := s.plan.GetOr(NoPlan);
    if Refused(s) then s.(messages := [Ai(GlobalDenial)])
    else
      match ExecuteActions(plan.actions, LastUserMessage(s.messages), extract, db)
      case Failure(e) => s.(messages := [Ai(DbErrorReply(e))])
      case Success(results) =>
        if !IsPrivileged(s.userRole) then
          NoGlobalKinds(plan.actions);
          assert forall i :: 0 <= i < |results| ==> ActionsOf(results)[i] in KnownKinds(plan.actions);
          s.(dbResults := Some(results))
        else s.(dbResults := Some(results))
  }

  /** The records the execution node stores are the store's answers: the
      record at a known step's place is that step's global or table-scoped
      result. */
  lemma StoredRecordIsAnswer(s: State, extract: string -> Option<string>, db: Db, i: int)
    requires !Refused(s)
    requires ExecuteActions(s.plan.GetOr(NoPlan).actions, LastUserMessage(s.messages), extract, db).Success?
    requires 0 <= i < |s.plan.GetOr(NoPlan).actions| && IsKnownKind(s.plan.GetOr(NoPlan).actions[i].kind)
    ensures var a := s.plan.GetOr(NoPlan).actions[i];
            var r := ExecuteNode(s, extract, db);
            var k := |KnownKinds(s.plan.GetOr(NoPlan).actions[..i])|;
            && r.dbResults.Some? && k < |r.dbResults.value|
            && (IsGlobal(a.kind) ==> RunGlobal(a.kind, db) == Success(r.dbResults.value[k]))
            && (IsTableScoped(a.kind) ==>
                  RunScoped(a.kind, TableToken(a, LastUserMessage(s.messages), extract), a.limit, db)
                  == Success(r.dbResults.value[k]))
  {
    var actions := s.plan.GetOr(NoPlan).actions;
    ExecutedInPlanOrder(actions, LastUserMessage(s.messages), extract, db, i);
  }

  /** A plan without global steps has no global kind among its known kinds. */
  lemma {:induction false} NoGlobalKinds(actions: seq<Action>)
    requires forall i :: 0 <= i < |actions| ==> !IsGlobal(actions[i].kind)
    ensures forall k :: k in KnownKinds(actions) ==> !IsGlobal(k)
  {
    if |actions| > 0 {
      NoGlobalKinds(actions[1..]);
    }
  }

  /** Guard after execution: stop when execution left no records and the
      history holds a reply (a denial or an error); reason otherwise. */
  function ShouldReason(s: State): (next: Node)
    ensures next == End || next == Reason
    ensures next == End <==> s.dbResults.None? && |s.messages| > 0
  {
    if s.dbResults.None? && s.messages != [] then End else Reason
  }
}

=== FILE: finalizer.dfy ===
/** The last two nodes: a reasoning model writes an intermediate answer from
    plan, records, role and request; the finalizer passes an overview
    through untouched or has a composing model write the reply. Both models
    are oracles. */
module Finalizer {
  import opened Wrappers
  import opened AgentState
  import opened Executor

  /** The reasoning node: sets the intermediate answer and nothing else. The
      model is asked about the plan, the last user message, the role and the
      records, an empty list standing for no records. */
  function ReasonNode(s: State, reasoner: (Plan, string, Option<string>, seq<DbResult>) -> string): (r: State)
    ensures r.reasonedAnswer.Some?
    ensures r == s.(reasonedAnswer := r.reasonedAnswer)
    ensures r.reasonedAnswer
            == Some(reasoner(s.plan.GetOr(NoPlan), LastUserMessage(s.messages), s.userRole, s.dbResults.GetOr([])))
  {
    var answer := reasoner(s.plan.GetOr(NoPlan), LastUserMessage(s.messages), s.userRole, s.dbResults.GetOr([]));
    s.(reasonedAnswer := Some(answer))
  }

  /** A completed overview step. */
  predicate IsOverviewRecord(e: DbResult) {
    e.Done? && e.result.OverviewText?
  }

  /** In well-formed records the `overview` action marks exactly the
      completed overview steps, since a failed step is table-scoped. */
  lemma OverviewActions(results: seq<DbResult>)
    requires WellFormedResults(results)
    ensures forall i :: 0 <= i < |results| ==> (results[i].Action() == "overview" <==> IsOverviewRecord(results[i]))
  {
    forall i | 0 <= i < |results|
      ensures results[i].Action() == "overview" <==> IsOverviewRecord(results[i])
    {
      if results[i].Error? {
        assert IsTableScoped(results[i].kind);
      }
    }
  }

  /** The position of the first overview record; the length when there is
      none. */
  function FirstOverviewAt(results: seq<DbResult>): (k: nat)
    ensures k <= |results|
    ensures k < |results| ==> IsOverviewRecord(results[k])
    ensures forall j :: 0 <= j < k ==> !IsOverviewRecord(results[j])
  {
    if |results| == 0 then 0
    else if IsOverviewRecord(results[0]) then 0
    else
      var k := FirstOverviewAt(results[1..]);
      assert forall j :: 1 <= j < k + 1 ==> results[j] == results[1..][j - 1];
      k + 1
  }

  /** The composing model's input: request, role, plan, records and the
      intermediate answer. */
  type Composer = (string, Option<string>, Plan, seq<DbResult>, Option<string>) -> string

  /** The finalizer. With an overview record among the results the reply is
      exactly the first such record's text and no model is asked; otherwise
      the composing model writes the reply. Either way the history becomes
      that one reply and nothing else changes. */
  function FinalizeNode(s: State, composer: Composer): (r: State)
    requires s.dbResults.Some? ==> WellFormedResults(s.dbResults.value)
    ensures var results := s.dbResults.GetOr([]);
            && ((exists i :: 0 <= i < |results| && results[i].Action() == "overview") ==>
                  exists i, reply :: 0 <= i < |results| && results[i].Done? && results[i].result == OverviewText(reply)
                                     && (forall j :: 0 <= j < i ==> results[j].Action() != "overview")
                                     && r == s.(messages := [Ai(reply)]))
            && ((forall i :: 0 <= i < |results| ==> results[i].Action() != "overview") ==>
                  r == s.(messages := [Ai(composer(LastUserMessage(s.messages), s.userRole,
                                                   s.plan.GetOr(NoPlan), results, s.reasonedAnswer))]))
  {
    var results := s.dbResults.GetOr([]);
    var k := FirstOverviewAt(results);
    OverviewActions(results);
    if k < |results| then
      var reply := results[k].result.text;
      assert results[k].Done? && results[k].result == OverviewText(reply);
      s.(messages := [Ai(reply)])
    else
      s.(messages := [Ai(composer(LastUserMessage(s.messages), s.userRole, s.plan.GetOr(NoPlan), results,
                                  s.reasonedAnswer))])
  }
}

=== FILE: foreign_keys.dfy ===
/** Grouping the rows of the foreign-key catalogue query into one record per
    constraint. The query returns one row per constrained column, ordered by
    constraint name and column position; the rows are folded into an
    insertion-ordered dictionary keyed by constraint name, the first row of
    a constraint fixing the referenced schema and table. */
module ForeignKeys {

  /** One row of the query: constraint, local column, referenced schema,
      table and column. */
  datatype FkRow = FkRow(name: string, column: string, refSchema: string, refTable: string, refColumn: string)

  /** One foreign key: its columns and the columns they reference, in row
      order. */
  datatype ForeignKey = ForeignKey(
    constraint: string,
    columns: seq<string>,
    refSchema: string,
    refTable: string,
    refColumns: seq<string>)

  /** The constraint names in order of first appearance, each once. */
  function Names(rows: seq<FkRow>): (ns: seq<string>)
    ensures forall n :: n in ns <==> exists j :: 0 <= j < |rows| && rows[j].name == n
    ensures forall a, b :: 0 <= a < b < |ns| ==> ns[a] != ns[b]
  {
    if |rows| == 0 then []
    else
      var init := rows[..|rows| - 1];
      var last := rows[|rows| - 1];
      var ns := Names(init);
      assert forall j :: 0 <= j < |init| ==> init[j] == rows[j];
      if last.name in ns then ns else ns + [last.name]
  }

  /** The rows of constraint `n`, in order. */
  function Named(rows: seq<FkRow>, n: string): (sel: seq<FkRow>)
    ensures forall k :: 0 <= k < |sel| ==> sel[k].name == n
    ensures |sel| > 0 <==> exists j :: 0 <= j < |rows| && rows[j].name == n
  {
    if |rows| == 0 then []
    else
      var init := rows[..|rows| - 1];
      var last := rows[|rows| - 1];
      assert forall j :: 0 <= j < |init| ==> init[j] == rows[j];
      Named(init, n) + (if last.name == n then [last] else [])
  }

  /** The positions of the rows of constraint `n`. */
  function NamedAt(rows: seq<FkRow>, n: string): seq<nat> {
    if |rows| == 0 then []
    else NamedAt(rows[..|rows| - 1], n) + (if rows[|rows| - 1].name == n then [|rows| - 1] else [])
  }

  /** The rows of constraint `n` are the rows at exactly the positions of
      rows named `n`, each once and in ascending order: every such row is
      selected and the selection keeps the order of the rows. */
  lemma {:induction false} NamedPositions(rows: seq<FkRow>, n: string)
    ensures var sel, at := Named(rows, n), NamedAt(rows, n);
            && |sel| == |at|
            && (forall k :: 0 <= k < |at| ==> at[k] < |rows| && sel[k] == rows[at[k]])
            && (forall k, l :: 0 <= k < l < |at| ==> at[k] < at[l])
            && (forall j :: 0 <= j < |rows| && rows[j].name == n ==> j in at)
  {
    NamedAtSelects(rows, n);
    NamedAtAscends(rows, n);
    NamedAtCovers(rows, n);
  }

  lemma {:induction false} NamedAtSelects(rows: seq<FkRow>, n: string)
    ensures var sel, at := Named(rows, n), NamedAt(rows, n);
            && |sel| == |at|
            && forall k :: 0 <= k < |at| ==> at[k] < |rows| && sel[k] == rows[at[k]]
  {
    if |rows| > 0 {
      var init := rows[..|rows| - 1];
      NamedAtSelects(init, n);
      var sel, at := Named(rows, n), NamedAt(rows, n);
      var before, beforeAt := Named(init, n), NamedAt(init, n);
      assert sel == before + (if rows[|rows| - 1].name == n then [rows[|rows| - 1]] else []);
      assert at == beforeAt + (if rows[|rows| - 1].name == n then [|rows| - 1] else []);
      forall k | 0 <= k < |before| ensures at[k] < |rows| && sel[k] == rows[at[k]] {
        assert at[k] == beforeAt[k] && sel[k] == before[k];
        assert rows[at[k]] == init[at[k]];
      }
    }
  }

  lemma {:induction false} NamedAtAscends(rows: seq<FkRow>, n: string)
    ensures forall k :: 0 <= k < |NamedAt(rows, n)| ==> NamedAt(rows, n)[k] < |rows|
    ensures forall k, l :: 0 <= k < l < |NamedAt(rows, n)| ==> NamedAt(rows, n)[k] < NamedAt(rows, n)[l]
  {
    if |rows| > 0 {
      var init := rows[..|rows| - 1];
      NamedAtAscends(init, n);
      var at, beforeAt := NamedAt(rows, n), NamedAt(init, n);
      assert at == beforeAt + (if rows[|rows| - 1].name == n then [|rows| - 1] else []);
    }
  }

  lemma {:induction false} NamedAtCovers(rows: seq<FkRow>, n: string)
    ensures forall j :: 0 <= j < |rows| && rows[j].name == n ==> j in NamedAt(rows, n)
  {
    if |rows| > 0 {
      var init := rows[..|rows| - 1];
      NamedAtCovers(init, n);
      var at, beforeAt := NamedAt(rows, n), NamedAt(init, n);
      assert at == beforeAt + (if rows[|rows| - 1].name == n then [|rows| - 1] else []);
      forall j | 0 <= j < |rows| && rows[j].name == n ensures j in at {
        if j < |rows| - 1 {
          assert init[j] == rows[j];
          assert j in beforeAt;
        }
      }
    }
  }

  function ColumnsOf(sel: seq<FkRow>): (cs: seq<string>)
    ensures |cs| == |sel| && forall k :: 0 <= k < |sel| ==> cs[k] == sel[k].column
  {
    seq(|sel|, k requires 0 <= k < |sel| => sel[k].column)
  }

  function RefColumnsOf(sel: seq<FkRow>): (cs: seq<string>)
    ensures |cs| == |sel| && forall k :: 0 <= k < |sel| ==> cs[k] == sel[k].refColumn
  {
    seq(|sel|, k requires 0 <= k < |sel| => sel[k].refColumn)
  }

  /** The record of constraint `n`: the columns of its rows in order, and
      the referenced schema and table of its first row. */
  function Group(rows: seq<FkRow>, n: string): (fk: ForeignKey)
    requires n in Names(rows)
  {
    var sel := Named(rows, n);
    ForeignKey(n, ColumnsOf(sel), sel[0].refSchema, sel[0].refTable, RefColumnsOf(sel))
  }

  /** The grouping, defined constraint by constraint: one record per
      constraint name, in order of first appearance. */
  function Grouped(rows: seq<FkRow>): (fks: seq<ForeignKey>)
    ensures |fks| == |Names(rows)|
    ensures forall k :: 0 <= k < |fks| ==> fks[k] == Group(rows, Names(rows)[k])
  {
    var ns := Names(rows);
    seq(|ns|, k requires 0 <= k < |ns| => Group(rows, ns[k]))
  }

  /** The dictionary lookup: the position of the record for `n`, or the
      length when there is none. */
  function FindGroup(fks: seq<ForeignKey>, n: string): (k: nat)
    ensures k <= |fks|
    ensures k < |fks| ==> fks[k].constraint == n
    ensures forall j :: 0 <= j < k ==> fks[j].constraint != n
  {
    if |fks| == 0 then 0
    else if fks[0].constraint == n then 0
    else
      var k := FindGroup(fks[1..], n);
      assert forall j :: 1 <= j < k + 1 ==> fks[j] == fks[1..][j - 1];
      k + 1
  }

  /** The record of a constraint after one more of its rows. */
  function Extend(g: ForeignKey, r: FkRow): ForeignKey {
    g.(columns := g.columns + [r.column], refColumns := g.refColumns + [r.refColumn])
  }

  /** The record `setdefault` opens for the first row of a constraint. */
  function Open(r: FkRow): ForeignKey {
    ForeignKey(r.name, [], r.refSchema, r.refTable, [])
  }

  /** One step of the loop: `setdefault` opens a record for a new name with
      the row's referenced schema and table, then the row's column and
      referenced column are appended to the record of its name. */
  function Insert(fks: seq<ForeignKey>, r: FkRow): (fks': seq<ForeignKey>)
    ensures |fks'| == |fks| || |fks'| == |fks| + 1
    ensures forall j :: 0 <= j < |fks| && fks[j].constraint != r.name ==> fks'[j] == fks[j]
  {
    var k := FindGroup(fks, r.name);
    if k < |fks| then fks[k := Extend(fks[k], r)]
    else fks + [Extend(Open(r), r)]
  }

  lemma InsertKnown(fks: seq<ForeignKey>, r: FkRow, p: nat)
    requires p < |fks| && fks[p].constraint == r.name
    requires forall j :: 0 <= j < p ==> fks[j].constraint != r.name
    ensures Insert(fks, r) == fks[p := Extend(fks[p], r)]
  {
    assert FindGroup(fks, r.name) == p;
  }

  lemma InsertNew(fks: seq<ForeignKey>, r: FkRow)
    requires forall j :: 0 <= j < |fks| ==> fks[j].constraint != r.name
    ensures Insert(fks, r) == fks + [Extend(Open(r), r)]
  {
  }

  /** The loop of the source over the query rows. Its result is the
      constraint-by-constraint grouping. */
  method GroupForeignKeys(rows: seq<FkRow>) returns (fks: seq<ForeignKey>)
    ensures fks == Grouped(rows)
  {
    fks := [];
    var i := 0;
    while i < |rows|
      invariant 0 <= i <= |rows|
      invariant fks == Grouped(rows[..i])
    {
      assert rows[..i + 1] == rows[..i] + [rows[i]];
      GroupedSnoc(rows[..i], rows[i]);
      fks := Insert(fks, rows[i]);
      i := i + 1;
    }
    assert rows[..i] == rows;
  }

  /** Folding one more row into the grouping of some rows gives the grouping
      of all of them. */
  lemma GroupedSnoc(rows: seq<FkRow>, r: FkRow)
    ensures Grouped(rows + [r]) == Insert(Grouped(rows), r)
  {
    if r.name in Names(rows) {
      SnocKnown(rows, r);
    } else {
      SnocNew(rows, r);
    }
  }

  /** The names of some rows with one more row after them. */
  lemma NamesSnoc(rows: seq<FkRow>, r: FkRow)
    ensures Names(rows + [r]) == if r.name in Names(rows) then Names(rows) else Names(rows) + [r.name]
  {
    assert (rows + [r])[..|rows|] == rows;
  }

  /** The records keep the order of the names. */
  lemma GroupedNames(rows: seq<FkRow>)
    ensures forall j :: 0 <= j < |Grouped(rows)| ==> Grouped(rows)[j].constraint == Names(rows)[j]
  {
  }

  lemma SnocKnown(rows: seq<FkRow>, r: FkRow)
    requires r.name in Names(rows)
    ensures Grouped(rows + [r]) == Insert(Grouped(rows), r)
  {
    var ns := Names(rows);
    var fks := Grouped(rows);
    GroupedNames(rows);
    var p :| 0 <= p < |ns| && ns[p] == r.name;
    InsertKnown(fks, r, p);
    GroupedKnown(rows, r, p);
  }

  /** After a row of the `p`-th constraint, the grouping differs only in
      that constraint's record. */
  lemma GroupedKnown(rows: seq<FkRow>, r: FkRow, p: nat)
    requires p < |Names(rows)| && Names(rows)[p] == r.name
    ensures var fks := Grouped(rows);
            Grouped(rows + [r]) == fks[p := Extend(fks[p], r)]
  {
    var ns := Names(rows);
    var fks := Grouped(rows);
    var after := Grouped(rows + [r]);
    var expected := fks[p := Extend(fks[p], r)];
    NamesSnoc(rows, r);
    assert Names(rows + [r]) == ns;
    assert |after| == |ns| == |expected|;
    forall q | 0 <= q < |ns| ensures after[q] == expected[q] {
      assert after[q] == Group(rows + [r], ns[q]) && fks[q] == Group(rows, ns[q]);
      if q == p {
        GroupGrows(rows, r);
      } else {
        OtherGroupKept(rows, r, ns[q]);
      }
    }
    assert after == expected;
  }

  lemma SnocNew(rows: seq<FkRow>, r: FkRow)
    requires r.name !in Names(rows)
    ensures Grouped(rows + [r]) == Insert(Grouped(rows), r)
  {
    GroupedNames(rows);
    InsertNew(Grouped(rows), r);
    GroupedNew(rows, r);
  }

  /** After the first row of a constraint, the grouping gains one record at
      its end. */
  lemma GroupedNew(rows: seq<FkRow>, r: FkRow)
    requires r.name !in Names(rows)
    ensures Grouped(rows + [r]) == Grouped(rows) + [Extend(Open(r), r)]
  {
    var ns := Names(rows);
    var fks := Grouped(rows);
    NamesSnoc(rows, r);
    forall q | 0 <= q < |ns| ensures Grouped(rows + [r])[q] == fks[q] {
      OtherGroupKept(rows, r, ns[q]);
    }
    NewGroup(rows, r);
  }

  /** A row of another constraint leaves a record as it was. */
  lemma OtherGroupKept(rows: seq<FkRow>, r: FkRow, n: string)
    requires n in Names(rows) && n != r.name
    ensures n in Names(rows + [r]) && Group(rows + [r], n) == Group(rows, n)
  {
    NamesSnoc(rows, r);
    NamedSnoc(rows, r, n);
    assert Named(rows + [r], n) == Named(rows, n);
  }

  lemma NamedSnoc(rows: seq<FkRow>, r: FkRow, n: string)
    ensures Named(rows + [r], n) == Named(rows, n) + (if r.name == n then [r] else [])
  {
    assert (rows + [r])[..|rows|] == rows;
  }

  /** A row of a known constraint extends that constraint's record. */
  lemma GroupGrows(rows: seq<FkRow>, r: FkRow)
    requires r.name in Names(rows)
    ensures r.name in Names(rows + [r])
    ensures Group(rows + [r], r.name) == Extend(Group(rows, r.name), r)
  {
    var sel := Named(rows, r.name);
    NamedSnoc(rows, r, r.name);
    assert Named(rows + [r], r.name) == sel + [r];
    assert ColumnsOf(sel + [r]) == ColumnsOf(sel) + [r.column];
    assert RefColumnsOf(sel + [r]) == RefColumnsOf(sel) + [r.refColumn];
  }

  /** A row of a new constraint opens a record of its own. */
  lemma NewGroup(rows: seq<FkRow>, r: FkRow)
    requires r.name !in Names(rows)
    ensures r.name in Names(rows + [r])
    ensures Group(rows + [r], r.name) == Extend(Open(r), r)
  {
    NamesSnoc(rows, r);
    NamedSnoc(rows, r, r.name);
    NoneNamed(rows, r.name);
    var sel := Named(rows + [r], r.name);
    assert sel == [r];
    assert ColumnsOf(sel) == [r.column];
    assert RefColumnsOf(sel) == [r.refColumn];
  }

  /** A name that is not among the names selects no rows. */
  lemma NoneNamed(rows: seq<FkRow>, n: string)
    requires n !in Names(rows)
    ensures Named(rows, n) == []
  {
  }

  /** Every row lands in the record of its constraint, at the position of
      its column among that constraint's rows, and no two records share a
      constraint name. */
  lemma GroupedCoversRows(rows: seq<FkRow>, j: int)
    requires 0 <= j < |rows|
    ensures var fks := Grouped(rows);
            exists k :: 0 <= k < |fks| && fks[k].constraint == rows[j].name
                        && rows[j].column in fks[k].columns && rows[j].refColumn in fks[k].refColumns
    ensures var fks := Grouped(rows);
            forall a, b :: 0 <= a < b < |fks| ==> fks[a].constraint != fks[b].constraint
  {
    var fks := Grouped(rows);
    var ns := Names(rows);
    var n := rows[j].name;
    assert n in ns;
    var k :| 0 <= k < |ns| && ns[k] == n;
    RowInNamed(rows, j);
    var sel := Named(rows, n);
    var t :| 0 <= t < |sel| && sel[t] == rows[j];
    assert fks[k].columns[t] == rows[j].column;
    assert fks[k].refColumns[t] == rows[j].refColumn;
  }

  lemma {:induction false} RowInNamed(rows: seq<FkRow>, j: int)
    requires 0 <= j < |rows|
    ensures rows[j] in Named(rows, rows[j].name)
  {
    var init := rows[..|rows| - 1];
    if j < |rows| - 1 {
      assert rows[j] == init[j];
      RowInNamed(init, j);
    }
  }
}

=== FILE: graph.dfy ===
/** The assistant's graph: check_access, then plan, then either clarify or
    execute, then reason and finalize, with the three guards choosing the
    branch. A run walks the graph from a node to the terminal, each node's
    output overwriting the keys it returns. */
module Graph {
  import opened Wrappers
  import opened Catalog
  import opened AgentState
  import opened AccessGate
  import opened Planner
  import opened Executor
  import opened Finalizer

  /** Everything outside the model a run consults: the planning model, the
      table-mention extractor, the reasoning model and the composing model. */
  datatype Oracles = Oracles(
    planner: (Option<string>, string) -> Option<Plan>,
    extract: string -> Option<string>,
    reasoner: (Plan, string, Option<string>, seq<DbResult>) -> string,
    composer: Composer)

  /** Guard after the gate: plan only when access was granted. */
  function AfterAccess(s: State): (next: Node)
    ensures next == PlanStep || next == End
    ensures next == PlanStep <==> s.accessGranted == Some(true)
  {
    if s.accessGranted.GetOr(false) then PlanStep else End
  }

  /** The edges the graph declares. */
  predicate Edge(n: Node, m: Node) {
    match n
    case CheckAccess => m == PlanStep || m == End
    case PlanStep => m == Clarify || m == Execute
    case Clarify => m == End
    case Execute => m == Reason || m == End
    case Reason => m == Finalize
    case Finalize => m == End
    case End => false
  }

  /** A topological rank of the nodes. */
  function Rank(n: Node): nat {
    match n
    case CheckAccess => 0
    case PlanStep => 1
    case Clarify => 4
    case Execute => 2
    case Reason => 3
    case Finalize => 4
    case End => 5
  }

  /** Every declared edge goes up in rank, so the graph has no cycle. */
  lemma EdgesAscend(n: Node, m: Node)
    requires Edge(n, m)
    ensures Rank(n) < Rank(m)
  {
  }

  /** The records stay well formed and, for a role other than staff, hold no
      global step. */
  predicate Sound(s: State) {
    s.dbResults.Some? ==>
      && WellFormedResults(s.dbResults.value)
      && (!IsPrivileged(s.userRole) ==>
            forall i :: 0 <= i < |s.dbResults.value| ==> !IsGlobal(s.dbResults.value[i].Action()))
  }

  /** Runs one node on the state. */
  function Step(n: Node, s: State, o: Oracles, db: Db): (r: State)
    requires n != End && Sound(s)
    ensures Sound(r)
    ensures r.userRole == s.userRole && r.userId == s.userId
    ensures n != CheckAccess ==> r.accessGranted == s.accessGranted
    ensures n != Execute ==> r.dbResults == s.dbResults
    ensures n != PlanStep ==> r.plan == s.plan
    ensures |s.messages| > 0 || n == CheckAccess ==> |r.messages| > 0
  {
    match n
    case CheckAccess => CheckUserAccess(s)
    case PlanStep => PlanNode(s, o.planner, o.extract)
    case Clarify => AskForClarification(s)
    case Execute => ExecuteNode(s, o.extract, db)
    case Reason => ReasonNode(s, o.reasoner)
    case Finalize => FinalizeNode(s, o.composer)
  }

  /** The node that follows `n`, chosen from the state `n` produced. */
  function Next(n: Node, s: State): (m: Node)
    requires n != End
    ensures Edge(n, m)
  {
    match n
    case CheckAccess => AfterAccess(s)
    case PlanStep => ShouldClarify(s)
    case Clarify => End
    case Execute => ShouldReason(s)
    case Reason => Finalize
    case Finalize => End
  }

  /** What a walk from `n` on `s` gives: a sound final state with the role
      and id untouched, and the nodes visited, from `n` to the terminal
      along declared edges only, so no node twice and at most one node per
      rank. */
  predicate Walk(n: Node, s: State, r: (State, seq<Node>)) {
    && Sound(r.0)
    && |r.1| > 0 && r.1[0] == n && r.1[|r.1| - 1] == End
    && |r.1| <= 6 - Rank(n)
    && (forall i :: 0 <= i < |r.1| - 1 ==> Edge(r.1[i], r.1[i + 1]))
    && r.0.userRole == s.userRole && r.0.userId == s.userId
  }

  /** Walks the graph from `n` to the terminal; returns the final state and
      the nodes visited, the terminal included. */
  function Run(n: Node, s: State, o: Oracles, db: Db): (r: (State, seq<Node>))
    requires Sound(s)
    ensures Walk(n, s, r)
    decreases 5 - Rank(n), 2
  {
    if n == End then (s, [End]) else RunFrom(n, s, o, db)
  }

  /** Runs the node `n` itself, then walks on. */
  function RunFrom(n: Node, s: State, o: Oracles, db: Db): (r: (State, seq<Node>))
    requires n != End && Sound(s)
    ensures Walk(n, s, r)
    decreases 5 - Rank(n), 1
  {
    Continue(n, Step(n, s, o, db), o, db)
  }

  /** After `n` produced `s`, the walk from the node its guard picks, with
      `n` in front. */
  function Continue(n: Node, s: State, o: Oracles, db: Db): (r: (State, seq<Node>))
    requires n != End && Sound(s)
    ensures Walk(n, s, r)
    decreases 5 - Rank(n), 0
  {
    var m := Next(n, s);
    EdgesAscend(n, m);
    var rest := Run(m, s, o, db);
    (rest.0, [n] + rest.1)
  }

  /** One request: a run from the gate. */
  function Invoke(s0: State, o: Oracles, db: Db): (r: (State, seq<Node>))
    requires Fresh(s0)
    ensures Sound(r.0) && r.0.userRole == s0.userRole && r.0.userId == s0.userId
    ensures 0 < |r.1| <= 6 && r.1[0] == CheckAccess && r.1[|r.1| - 1] == End
    ensures forall i :: 0 <= i < |r.1| - 1 ==> Edge(r.1[i], r.1[i + 1])
  {
    Run(CheckAccess, s0, o, db)
  }

  /** A run from a node other than the terminal is that node's step followed
      by the walk on. */
  lemma RunUnfolds(n: Node, s: State, o: Oracles, db: Db)
    requires Sound(s) && n != End
    ensures Run(n, s, o, db) == Continue(n, Step(n, s, o, db), o, db)
  {
    assert Run(n, s, o, db) == RunFrom(n, s, o, db);
  }

  /** The steps of the individual nodes, unfolded. */
  lemma GateStep(s: State, o: Oracles, db: Db)
    requires Sound(s)
    ensures Run(CheckAccess, s, o, db) == Continue(CheckAccess, CheckUserAccess(s), o, db)
  {
    RunUnfolds(CheckAccess, s, o, db);
  }

  lemma PlanningStep(s: State, o: Oracles, db: Db)
    requires Sound(s)
    ensures Run(PlanStep, s, o, db) == Continue(PlanStep, PlanNode(s, o.planner, o.extract), o, db)
  {
    RunUnfolds(PlanStep, s, o, db);
  }

  lemma ExecutionStep(s: State, o: Oracles, db: Db)
    requires Sound(s)
    ensures Run(Execute, s, o, db) == Continue(Execute, ExecuteNode(s, o.extract, db), o, db)
  {
    RunUnfolds(Execute, s, o, db);
  }

  lemma ReasoningStep(s: State, o: Oracles, db: Db)
    requires Sound(s)
    ensures Run(Reason, s, o, db) == Continue(Reason, ReasonNode(s, o.reasoner), o, db)
  {
    RunUnfolds(Reason, s, o, db);
  }

  lemma FinalizingStep(s: State, o: Oracles, db: Db)
    requires Sound(s)
    ensures Run(Finalize, s, o, db) == Continue(Finalize, FinalizeNode(s, o.composer), o, db)
  {
    RunUnfolds(Finalize, s, o, db);
  }

  /** A request refused at the gate ends there: nothing is planned, nothing
      runs, and the only change is the grant and the directive in front of
      the history. */
  lemma DeniedAtGate(s0: State, o: Oracles, db: Db)
    requires Fresh(s0)
    requires CheckUserAccess(s0).accessGranted == Some(false)
    ensures Invoke(s0, o, db) == (CheckUserAccess(s0), [CheckAccess, End])
  {
    var s1 := CheckUserAccess(s0);
    GateStep(s0, o, db);
    assert Next(CheckAccess, s1) == End;
    assert Run(End, s1, o, db) == (s1, [End]);
    assert [CheckAccess] + [End] == [CheckAccess, End];
  }

  /** A role other than staff never receives a global record, whatever the
      models plan and whatever the store holds. */
  lemma NoGlobalRecordsForUsers(s0: State, o: Oracles, db: Db)
    requires Fresh(s0) && !IsPrivileged(s0.userRole)
    ensures var f := Invoke(s0, o, db).0;
            f.dbResults.Some? ==> forall i :: 0 <= i < |f.dbResults.value| ==> !IsGlobal(f.dbResults.value[i].Action())
  {
  }

  /** Past the gate, no node changes the grant. */
  lemma {:induction false} GrantKept(n: Node, s: State, o: Oracles, db: Db)
    requires Sound(s) && n != CheckAccess
    ensures Run(n, s, o, db).0.accessGranted == s.accessGranted
    decreases 5 - Rank(n)
  {
    if n != End {
      RunUnfolds(n, s, o, db);
      var s' := Step(n, s, o, db);
      var m := Next(n, s');
      EdgesAscend(n, m);
      GrantKept(m, s', o, db);
    }
  }

  /** The grant is decided once, by the gate, and is what the request ends
      with. */
  lemma GrantDecidedOnce(s0: State, o: Oracles, db: Db)
    requires Fresh(s0)
    ensures Invoke(s0, o, db).0.accessGranted == CheckUserAccess(s0).accessGranted
  {
    if CheckUserAccess(s0).accessGranted == Some(true) {
      GrantedKept(s0, o, db);
    } else {
      DeniedAtGate(s0, o, db);
    }
  }

  lemma GrantedKept(s0: State, o: Oracles, db: Db)
    requires Fresh(s0) && CheckUserAccess(s0).accessGranted == Some(true)
    ensures Invoke(s0, o, db).0.accessGranted == Some(true)
  {
    var s1 := CheckUserAccess(s0);
    GrantedRun(s0, o, db, Run(PlanStep, s1, o, db));
    GrantKept(PlanStep, s1, o, db);
  }

  /** Reasoning only happens over records: once past the gate the history
      is never empty, so the reasoning node is reached only when execution
      stored records. */
  lemma {:induction false} ReasonOnlyWithRecords(n: Node, s: State, o: Oracles, db: Db, i: int)
    requires Sound(s) && n != CheckAccess && |s.messages| > 0
    requires (n == Reason || n == Finalize) ==> s.dbResults.Some?
    requires 0 <= i < |Run(n, s, o, db).1| && Run(n, s, o, db).1[i] == Reason
    ensures Run(n, s, o, db).0.dbResults.Some?
    decreases 5 - Rank(n)
  {
    if n == Reason {
      ReasonKeepsRecords(s, o, db);
    } else if n != End && i > 0 {
      RunUnfolds(n, s, o, db);
      var s' := Step(n, s, o, db);
      var m := Next(n, s');
      EdgesAscend(n, m);
      ReasonOnlyWithRecords(m, s', o, db, i - 1);
    }
  }

  /** From the reasoning node on, the records are not touched. */
  lemma ReasonKeepsRecords(s: State, o: Oracles, db: Db)
    requires Sound(s) && s.dbResults.Some?
    ensures Run(Reason, s, o, db).0.dbResults == s.dbResults
  {
    ReasoningStep(s, o, db);
    var s1 := ReasonNode(s, o.reasoner);
    assert Next(Reason, s1) == Finalize;
    FinalizingStep(s1, o, db);
    var s2 := FinalizeNode(s1, o.composer);
    assert Next(Finalize, s2) == End;
    assert Run(End, s2, o, db) == (s2, [End]);
  }

  /** A refused plan stops at execution with the denial as the history. */
  lemma RefusedAtExecution(s: State, o: Oracles, db: Db)
    requires Sound(s) && Refused(s) && s.dbResults.None?
    ensures Run(Execute, s, o, db) == (s.(messages := [Ai(GlobalDenial)]), [Execute, End])
  {
    ExecutionStep(s, o, db);
    var s1 := ExecuteNode(s, o.extract, db);
    assert s1 == s.(messages := [Ai(GlobalDenial)]);
    assert Next(Execute, s1) == End;
    assert Run(End, s1, o, db) == (s1, [End]);
    assert [Execute] + [End] == [Execute, End];
  }

  /** A plan with a global step made for a role other than staff stops at
      execution. */
  lemma RefusedAfterPlanning(s1: State, o: Oracles, db: Db)
    requires Sound(s1) && s1.accessGranted == Some(true) && s1.dbResults.None?
    requires var s2 := PlanNode(s1, o.planner, o.extract);
             ShouldClarify(s2) == Execute && Refused(s2)
    ensures var s2 := PlanNode(s1, o.planner, o.extract);
            Run(PlanStep, s1, o, db) == (s2.(messages := [Ai(GlobalDenial)]), [PlanStep, Execute, End])
  {
    PlanningStep(s1, o, db);
    var s2 := PlanNode(s1, o.planner, o.extract);
    assert Next(PlanStep, s2) == Execute;
    RefusedAtExecution(s2, o, db);
    assert [PlanStep] + [Execute, End] == [PlanStep, Execute, End];
  }

  /** Putting a node in front of a path of three. */
  lemma PrependNode(n: Node, path: seq<Node>)
    requires |path| == 3
    ensures [n] + path == [n, path[0], path[1], path[2]]
  {
  }

  /** A granted request runs the gate and then a run from planning. */
  lemma GrantedRun(s0: State, o: Oracles, db: Db, tail: (State, seq<Node>))
    requires Fresh(s0) && CheckUserAccess(s0).accessGranted == Some(true)
    requires tail == Run(PlanStep, CheckUserAccess(s0), o, db)
    ensures Invoke(s0, o, db) == (tail.0, [CheckAccess] + tail.1)
  {
    GateStep(s0, o, db);
    assert Next(CheckAccess, CheckUserAccess(s0)) == PlanStep;
  }

  /** A request that gets past the gate and asks for a global step under a
      role other than staff ends at execution with the single denial in the
      history and no records, whatever the store holds. */
  lemma GlobalStepRefused(s0: State, o: Oracles, db: Db)
    requires Fresh(s0)
    requires var s1 := CheckUserAccess(s0);
             var s2 := PlanNode(s1, o.planner, o.extract);
             && s1.accessGranted == Some(true)
             && ShouldClarify(s2) == Execute
             && Refused(s2)
    ensures var s1 := CheckUserAccess(s0);
            var s2 := PlanNode(s1, o.planner, o.extract);
            Invoke(s0, o, db) == (s2.(messages := [Ai(GlobalDenial)]), [CheckAccess, PlanStep, Execute, End])
  {
    var s1 := CheckUserAccess(s0);
    RefusedAfterPlanning(s1, o, db);
    var tail := Run(PlanStep, s1, o, db);
    GrantedRun(s0, o, db, tail);
    PrependNode(CheckAccess, [PlanStep, Execute, End]);
  }

  /** The query exception of a plan the executor accepted, if any. */
  function QueryFailure(s: State, o: Oracles, db: Db): Result<seq<DbResult>> {
    ExecuteActions(s.plan.GetOr(NoPlan).actions, LastUserMessage(s.messages), o.extract, db)
  }

  /** A query exception stops the run at execution with the error reply as
      the whole history and no records. */
  lemma QueryFailureAtExecution(s: State, o: Oracles, db: Db)
    requires Sound(s) && !Refused(s) && s.dbResults.None?
    requires QueryFailure(s, o, db).Failure?
    ensures var e := QueryFailure(s, o, db).error;
            Run(Execute, s, o, db) == (s.(messages := [Ai(DbErrorReply(e))]), [Execute, End])
  {
    ExecutionStep(s, o, db);
    var s1 := ExecuteNode(s, o.extract, db);
    assert s1 == s.(messages := [Ai(DbErrorReply(QueryFailure(s, o, db).error))]);
    assert Next(Execute, s1) == End;
    assert Run(End, s1, o, db) == (s1, [End]);
    assert [Execute] + [End] == [Execute, End];
  }

  /** An accepted plan whose queries raise stops at execution. */
  lemma QueryFailureAfterPlanning(s1: State, o: Oracles, db: Db)
    requires Sound(s1) && s1.accessGranted == Some(true) && s1.dbResults.None?
    requires var s2 := PlanNode(s1, o.planner, o.extract);
             ShouldClarify(s2) == Execute && !Refused(s2) && QueryFailure(s2, o, db).Failure?
    ensures var s2 := PlanNode(s1, o.planner, o.extract);
            var e := QueryFailure(s2, o, db).error;
            Run(PlanStep, s1, o, db) == (s2.(messages := [Ai(DbErrorReply(e))]), [PlanStep, Execute, End])
  {
    PlanningStep(s1, o, db);
    var s2 := PlanNode(s1, o.planner, o.extract);
    assert Next(PlanStep, s2) == Execute;
    QueryFailureAtExecution(s2, o, db);
    assert [PlanStep] + [Execute, End] == [PlanStep, Execute, End];
  }

  /** A request that gets past the gate and whose accepted plan raises a
      query exception ends at execution with the error reply as the whole
      history and no records. */
  lemma QueryFailureEndsRun(s0: State, o: Oracles, db: Db)
    requires Fresh(s0)
    requires var s1 := CheckUserAccess(s0);
             var s2 := PlanNode(s1, o.planner, o.extract);
             && s1.accessGranted == Some(true)
             && ShouldClarify(s2) == Execute
             && !Refused(s2)
             && QueryFailure(s2, o, db).Failure?
    ensures var s1 := CheckUserAccess(s0);
            var s2 := PlanNode(s1, o.planner, o.extract);
            var e := QueryFailure(s2, o, db).error;
            Invoke(s0, o, db) == (s2.(messages := [Ai(DbErrorReply(e))]), [CheckAccess, PlanStep, Execute, End])
  {
    var s1 := CheckUserAccess(s0);
    QueryFailureAfterPlanning(s1, o, db);
    var tail := Run(PlanStep, s1, o, db);
    GrantedRun(s0, o, db, tail);
    PrependNode(CheckAccess, [PlanStep, Execute, End]);
  }
}

=== FILE: numerals.dfy ===
/** Decimal rendering of integers (Python's `str(n)` / f-string `{n}`) and
    Python's `int(text)` in base 10. */
module Numerals {
  import opened Wrappers
  import opened Strings

  predicate IsDigit(c: char) {
    '0' <= c <= '9'
  }

  function DigitChar(d: nat): (c: char)
    requires d < 10
    ensures IsDigit(c)
  {
    ('0' as int + d) as char
  }

  function DigitValue(c: char): (d: nat)
    requires IsDigit(c)
    ensures d < 10 && DigitChar(d) == c
  {
    c as int - '0' as int
  }

  /** Decimal digits of `n`, most significant first, no leading zero. */
  function NatToString(n: nat): (r: string)
    ensures |r| > 0
    ensures forall i :: 0 <= i < |r| ==> IsDigit(r[i])
    ensures |r| > 1 ==> r[0] != '0'
    ensures r[0] == '0' <==> n == 0
  {
    if n < 10 then [DigitChar(n)] else NatToString(n / 10) + [DigitChar(n % 10)]
  }

  function IntToString(n: int): (r: string)
    ensures |r| > 0
    ensures forall i :: 0 <= i < |r| ==> IsDigit(r[i]) || (i == 0 && r[i] == '-')
    ensures IsDigit(r[|r| - 1])
    ensures r[0] == '-' <==> n < 0
    ensures r[0] == '-' ==> |r| > 1 && r[1] != '0'
    ensures r[0] == '0' ==> r == "0"
  {
    if n < 0 then "-" + NatToString(-n) else NatToString(n)
  }

  /** The number a string of decimal digits denotes. */
  function DigitsValue(s: string): nat
    requires forall i :: 0 <= i < |s| ==> IsDigit(s[i])
  {
    if |s| == 0 then 0 else DigitsValue(s[..|s| - 1]) * 10 + DigitValue(s[|s| - 1])
  }

  lemma {:induction false} DigitsValueOfNatToString(n: nat)
    ensures DigitsValue(NatToString(n)) == n
  {
    if n >= 10 {
      var s := NatToString(n);
      assert s[..|s| - 1] == NatToString(n / 10);
      DigitsValueOfNatToString(n / 10);
    }
  }

  /** The body of a base-10 literal as `int` accepts it: digits, with single
      underscores allowed between two digits. */
  predicate IsDigitGroups(s: string) {
    && |s| > 0
    && IsDigit(s[0]) && IsDigit(s[|s| - 1])
    && (forall i :: 0 <= i < |s| ==> IsDigit(s[i]) || s[i] == '_')
    && (forall i :: 0 <= i < |s| - 1 ==> !(s[i] == '_' && s[i + 1] == '_'))
  }

  function DropUnderscores(s: string): (r: string)
    requires forall i :: 0 <= i < |s| ==> IsDigit(s[i]) || s[i] == '_'
    ensures forall i :: 0 <= i < |r| ==> IsDigit(r[i])
    ensures (forall i :: 0 <= i < |s| ==> IsDigit(s[i])) ==> r == s
  {
    if |s| == 0 then ""
    else (if s[0] == '_' then "" else [s[0]]) + DropUnderscores(s[1..])
  }

  /** Python's `int(text)`: surrounding whitespace is ignored, an optional
      sign, then the digit groups; anything else raises `ValueError`. */
  function ParseInt(text: string): Result<int> {
    ParseSigned(Strip(text))
  }

  /** `int` on text already stripped. */
  function ParseSigned(t: string): Result<int> {
    var negative := |t| > 0 && t[0] == '-';
    var body := if |t| > 0 && (t[0] == '+' || t[0] == '-') then t[1..] else t;
    if IsDigitGroups(body) then
      var n: int := DigitsValue(DropUnderscores(body));
      Success(if negative then -n else n)
    else
      Failure("invalid literal for int() with base 10")
  }

  /** Plain digits are accepted as digit groups and mean their value. */
  lemma DigitsAreGroups(digits: string)
    requires |digits| > 0 && forall i :: 0 <= i < |digits| ==> IsDigit(digits[i])
    ensures IsDigitGroups(digits) && DropUnderscores(digits) == digits
  {
  }

  /** Plain digits read as their value. */
  lemma ParseDigits(digits: string)
    requires |digits| > 0 && forall i :: 0 <= i < |digits| ==> IsDigit(digits[i])
    ensures ParseInt(digits) == Success(DigitsValue(digits))
  {
    StripUnbordered(digits);
    SignedDigits(digits);
  }

  lemma SignedDigits(digits: string)
    requires |digits| > 0 && forall i :: 0 <= i < |digits| ==> IsDigit(digits[i])
    ensures ParseSigned(digits) == Success(DigitsValue(digits))
  {
    assert digits[0] != '+' && digits[0] != '-';
    DigitsAreGroups(digits);
  }

  /** A minus followed by plain digits reads as the negated value. */
  lemma ParseNegatedDigits(t: string)
    requires |t| > 1 && t[0] == '-' && forall i :: 1 <= i < |t| ==> IsDigit(t[i])
    ensures ParseInt(t) == Success(-(DigitsValue(t[1..]) as int))
  {
    StripUnbordered(t);
    SignedNegatedDigits(t);
  }

  lemma SignedNegatedDigits(t: string)
    requires |t| > 1 && t[0] == '-' && forall i :: 1 <= i < |t| ==> IsDigit(t[i])
    ensures ParseSigned(t) == Success(-(DigitsValue(t[1..]) as int))
  {
    DigitsAreGroups(t[1..]);
  }

  /** Rendering an integer and reading it back gives the integer. */
  lemma ParseIntOfIntToString(n: int)
    ensures ParseInt(IntToString(n)) == Success(n)
  {
    var m: nat := if n < 0 then -n else n;
    DigitsValueOfNatToString(m);
    if n < 0 {
      var t := IntToString(n);
      assert t[1..] == NatToString(m);
      ParseNegatedDigits(t);
    } else {
      ParseDigits(NatToString(m));
    }
  }
}

=== FILE: ordering.dfy ===
/** Python's ordering of `str` values (code point by code point, a proper
    prefix first) and `sorted(set(xs))` for a list of strings. */
module Ordering {

  predicate Less(a: string, b: string)
    decreases |a|
  {
    if |a| == 0 then |b| > 0
    else if |b| == 0 then false
    else a[0] < b[0] || (a[0] == b[0] && Less(a[1..], b[1..]))
  }

  lemma {:induction false} LessIrreflexive(a: string)
    ensures !Less(a, a)
    decreases |a|
  {
    if |a| > 0 {
      LessIrreflexive(a[1..]);
    }
  }

  lemma {:induction false} LessTransitive(a: string, b: string, c: string)
    requires Less(a, b) && Less(b, c)
    ensures Less(a, c)
    decreases |a|
  {
    if |a| > 0 && a[0] == b[0] && b[0] == c[0] {
      LessTransitive(a[1..], b[1..], c[1..]);
    }
  }

  lemma {:induction false} LessTotal(a: string, b: string)
    ensures a == b || Less(a, b) || Less(b, a)
    decreases |a|
  {
    if |a| > 0 && |b| > 0 && a[0] == b[0] {
      LessTotal(a[1..], b[1..]);
      if a[1..] == b[1..] {
        assert a == [a[0]] + a[1..] && b == [b[0]] + b[1..];
      }
    }
  }

  /** Each element is smaller than the next one. */
  predicate StrictlySorted(s: seq<string>) {
    forall i :: 0 <= i < |s| - 1 ==> Less(s[i], s[i + 1])
  }

  /** In a strictly sorted list every element is smaller than all later ones,
      so in particular no element occurs twice. */
  lemma {:induction false} StrictlySortedPairs(s: seq<string>, i: int, j: int)
    requires StrictlySorted(s)
    requires 0 <= i < j < |s|
    ensures Less(s[i], s[j])
    decreases j - i
  {
    if j > i + 1 {
      StrictlySortedPairs(s, i + 1, j);
      LessTransitive(s[i], s[i + 1], s[j]);
    }
  }

  /** Adds `x` to a strictly sorted list, keeping it strictly sorted and
      without duplicates. */
  function Insert(x: string, s: seq<string>): (r: seq<string>)
    requires StrictlySorted(s)
    ensures StrictlySorted(r)
    ensures forall y :: y in r <==> y == x || y in s
    ensures |r| > 0 && (r[0] == x || (|s| > 0 && r[0] == s[0]))
  {
    if |s| == 0 then [x]
    else if x == s[0] then s
    else if Less(x, s[0]) then [x] + s
    else
      LessTotal(x, s[0]);
      assert StrictlySorted(s[1..]);
      [s[0]] + Insert(x, s[1..])
  }

  /** Python's `sorted(set(xs))`. */
  function SortedSet(xs: seq<string>): (r: seq<string>)
    ensures StrictlySorted(r)
    ensures forall y :: y in r <==> y in xs
  {
    if |xs| == 0 then []
    else
      var r := SortedSet(xs[..|xs| - 1]);
      assert xs == xs[..|xs| - 1] + [xs[|xs| - 1]];
      Insert(xs[|xs| - 1], r)
  }

  /** A set has exactly one strictly sorted listing: whatever strictly sorted
      list holds the same strings as `xs` is `SortedSet(xs)`. */
  lemma SortedSetUnique(xs: seq<string>, s: seq<string>)
    requires StrictlySorted(s)
    requires forall y :: y in s <==> y in xs
    ensures s == SortedSet(xs)
  {
    SortedListingUnique(s, SortedSet(xs));
  }

  lemma {:induction false} SortedListingUnique(a: seq<string>, b: seq<string>)
    requires StrictlySorted(a) && StrictlySorted(b)
    requires forall y :: y in a <==> y in b
    ensures a == b
    decreases |a|
  {
    SameElementsBothEmpty(a, b);
    if |a| > 0 {
      // the head of each list is the least element of the shared set
      if a[0] != b[0] {
        assert a[0] in b && b[0] in a;
        var j :| 0 <= j < |b| && b[j] == a[0];
        var k :| 0 <= k < |a| && a[k] == b[0];
        StrictlySortedPairs(b, 0, j);
        StrictlySortedPairs(a, 0, k);
        LessTransitive(a[0], b[0], a[0]);
        LessIrreflexive(a[0]);
        assert false;
      }
      forall y
        ensures y in a[1..] <==> y in b[1..]
      {
        if y in a[1..] {
          var j :| 1 <= j < |a| && a[j] == y;
          StrictlySortedPairs(a, 0, j);
          LessIrreflexive(y);
          assert y in b;
          var k :| 0 <= k < |b| && b[k] == y;
          assert k != 0;
        }
        if y in b[1..] {
          var j :| 1 <= j < |b| && b[j] == y;
          StrictlySortedPairs(b, 0, j);
          LessIrreflexive(y);
          assert y in a;
          var k :| 0 <= k < |a| && a[k] == y;
          assert k != 0;
        }
      }
      SortedListingUnique(a[1..], b[1..]);
      assert a == [a[0]] + a[1..] && b == [b[0]] + b[1..];
    }
  }

  lemma SameElementsBothEmpty(a: seq<string>, b: seq<string>)
    requires forall y :: y in a <==> y in b
    ensures |a| == 0 <==> |b| == 0
  {
    if |a| > 0 {
      assert a[0] in b;
    }
    if |b| > 0 {
      assert b[0] in a;
    }
  }
}

=== FILE: planner.dfy ===
/** The intent planner. A language model is asked for a JSON plan; when its
    answer does not parse, an ordered keyword classifier and a table-mention
    extractor build the plan instead. The model's answer and the extractor
    are oracles. */
module Planner {
  import opened Wrappers
  import opened Strings
  import opened AgentState

  const CountKeywords: seq<string> :=
    ["cuantas tablas", "cuántas tablas", "numero de tablas", "número de tablas",
     "total de tablas", "how many tables", "count tables"]

  const ListKeywords: seq<string> :=
    ["lista de tablas", "listar tablas", "muestrame las tablas", "muéstrame las tablas",
     "show tables", "list tables"]

  const ColumnKeywords: seq<string> :=
    ["columnas", "campos", "estructura", "schema de", "describe", "describir"]

  const RowCountKeywords: seq<string> :=
    ["cuantas filas", "cuántas filas", "numero de filas", "número de filas",
     "registros totales", "row count", "count rows"]

  const SampleKeywords: seq<string> :=
    ["muestra filas", "muestrame filas", "primeros", "primeras", "sample",
     "mostrar filas", "ver filas"]

  const OverviewKeywords: seq<string> :=
    ["toda la base de datos", "toda su información", "estructura completa", "overview",
     "esquema completo", "todas las tablas y columnas", "diagrama"]

  /** Classifies the lower-cased text by the first rule that fires: count,
      list (a list phrase, or "tablas" without "columnas"), columns, rowcount,
      sample, overview; no rule firing means no database intent. */
  function DetectIntent(text: string): (intent: Option<string>)
    ensures intent.Some? ==> intent.value in {"count", "list", "columns", "rowcount", "sample", "overview"}
  {
    var t := Lower(text);
    if ContainsAny(t, CountKeywords) then Some("count")
    else if ContainsAny(t, ListKeywords) || (Contains(t, "tablas") && !Contains(t, "columnas")) then Some("list")
    else if ContainsAny(t, ColumnKeywords) then Some("columns")
    else if ContainsAny(t, RowCountKeywords) then Some("rowcount")
    else if ContainsAny(t, SampleKeywords) then Some("sample")
    else if ContainsAny(t, OverviewKeywords) then Some("overview")
    else None
  }

  /** The classifier ignores letter case. */
  lemma DetectIntentIgnoresCase(text: string)
    ensures DetectIntent(Lower(text)) == DetectIntent(text)
  {
    LowerIdempotent(text);
  }

  /** A text has no database intent exactly when no keyword of any rule
      occurs in it and neither does "tablas". */
  lemma DetectIntentNoneIff(text: string)
    ensures var t := Lower(text);
            (DetectIntent(text).None?
             <==> && !ContainsAny(t, CountKeywords) && !ContainsAny(t, ListKeywords)
                  && !ContainsAny(t, ColumnKeywords) && !ContainsAny(t, RowCountKeywords)
                  && !ContainsAny(t, SampleKeywords) && !ContainsAny(t, OverviewKeywords)
                  && !Contains(t, "tablas"))
  {
    var t := Lower(text);
    if Contains(t, "tablas") && Contains(t, "columnas") {
      assert ColumnKeywords[0] == "columnas";
      assert ContainsAny(t, ColumnKeywords);
    }
  }

  /** Asking how many tables there are wins over every other rule. */
  lemma CountPhraseWins(text: string, k: string)
    requires k in CountKeywords
    requires Contains(Lower(text), k)
    ensures DetectIntent(text) == Some("count")
  {
    var j :| 0 <= j < |CountKeywords| && CountKeywords[j] == k;
  }

  /** The question asked when a table-scoped request names no table. */
  const TableQuestion := "¿De qué tabla? Indica 'schema.tabla' o solo 'tabla'."

  /** The plan built when the model's answer does not parse. It holds at
      most one step or one question; global intents map to their step,
      table-scoped intents carry the extracted table (a sample always with
      limit 5) or, with no table mentioned, ask for one instead of guessing;
      text with no intent gives the step-less "general" plan. */
  function FallbackPlan(text: string, extract: string -> Option<string>): (p: Plan)
    ensures p.intent == DetectIntent(text).GetOr("general")
    ensures |p.actions| + |p.clarifications| <= 1
    ensures forall a :: a in p.actions ==> IsKnownKind(a.kind)
    ensures forall a :: a in p.actions && a.kind == "sample" ==> a.limit == Some(5)
    ensures DetectIntent(text) == Some("count") ==> p.actions == [Action("count_tables", None, None)] && p.clarifications == []
    ensures DetectIntent(text) == Some("list") ==> p.actions == [Action("list_tables", None, None)] && p.clarifications == []
    ensures DetectIntent(text) == Some("overview") ==> p.actions == [Action("overview", None, None)] && p.clarifications == []
    ensures DetectIntent(text).Some? && IsTableScoped(DetectIntent(text).value) ==>
              if extract(text).Some? && extract(text).value != "" then
                && p.clarifications == []
                && |p.actions| == 1 && p.actions[0].kind == DetectIntent(text).value
                && p.actions[0].table == extract(text)
              else p.actions == [] && p.clarifications == [TableQuestion]
    ensures DetectIntent(text).None? ==> p == Plan("general", [], [])
  {
    var intent := DetectIntent(text);
    if intent == Some("overview") then Plan("overview", [Action("overview", None, None)], [])
    else if intent == Some("count") then Plan("count", [Action("count_tables", None, None)], [])
    else if intent == Some("list") then Plan("list", [Action("list_tables", None, None)], [])
    else if intent.Some? && IsTableScoped(intent.value) then
      var raw := extract(text);
      if raw.Some? && raw.value != "" then
        var limit := if intent.value == "sample" then Some(5) else None;
        Plan(intent.value, [Action(intent.value, raw, limit)], [])
      else Plan(intent.value, [], [TableQuestion])
    else Plan(intent.GetOr("general"), [], [])
  }

  /** The reply of the planning node when it is reached without access. */
  const PlannerDenial := "❌ Acceso denegado. No tienes permisos suficientes."

  /** The planning node. Without access it only replaces the history with a
      denial; with access it plans from the last human message, taking the
      model's plan when it parses and the fallback plan otherwise. */
  function PlanNode(s: State, planner: (Option<string>, string) -> Option<Plan>,
                    extract: string -> Option<string>): (r: State)
    ensures s.accessGranted != Some(true) ==> r == s.(messages := [Ai(PlannerDenial)])
    ensures s.accessGranted == Some(true) ==>
              var text := LastUserMessage(s.messages);
              && r.plan.Some?
              && r == s.(plan := r.plan)
              && (planner(s.userRole, text).Some? ==> r.plan == planner(s.userRole, text))
              && (planner(s.userRole, text).None? ==> r.plan == Some(FallbackPlan(text, extract)))
  {
    if s.accessGranted != Some(true) then s.(messages := [Ai(PlannerDenial)])
    else
      var text := LastUserMessage(s.messages);
      match planner(s.userRole, text)
      case Some(p) => s.(plan := Some(p))
      case None => s.(plan := Some(FallbackPlan(text, extract)))
  }

  /** Guard after planning: ask back exactly when the plan has questions. */
  function ShouldClarify(s: State): (next: Node)
    ensures next == Clarify || next == Execute
    ensures next == Clarify <==> s.plan.Some? && |s.plan.value.clarifications| > 0
  {
    if s.plan.GetOr(NoPlan).clarifications != [] then Clarify else Execute
  }

  const DefaultQuestion := "Necesito una aclaración adicional."

  /** The clarification node: the history becomes one question, the plan's
      first one, or a generic request for more detail when the plan has
      none; nothing else changes. */
  function AskForClarification(s: State): (r: State)
    ensures r == s.(messages := r.messages) && |r.messages| == 1 && r.messages[0].Ai?
    ensures var qs := s.plan.GetOr(NoPlan).clarifications;
            && (qs != [] ==> r.messages[0].content == qs[0])
            && (qs == [] ==> r.messages[0].content == DefaultQuestion)
  {
    var qs := s.plan.GetOr(NoPlan).clarifications;
    s.(messages := [Ai(if qs != [] then qs[0] else DefaultQuestion)])
  }

  /** The columns rule decides exactly the texts with a columns keyword
      that fire neither the count rule nor the list rule; in particular a
      text with both "tablas" and "columnas" asks for columns. */
  lemma ColumnsRuleFires(text: string)
    ensures var t := Lower(text);
            DetectIntent(text) == Some("columns") <==> NoTableRule(t) && ContainsAny(t, ColumnKeywords)
  {
  }

  /** The count rule decides exactly the texts with a count phrase. */
  lemma CountRuleFires(text: string)
    ensures DetectIntent(text) == Some("count") <==> ContainsAny(Lower(text), CountKeywords)
  {
  }

  /** The list rule decides exactly the texts with a list phrase, or with
      "tablas" but not "columnas", and without a count phrase. */
  lemma ListRuleFires(text: string)
    ensures var t := Lower(text);
            DetectIntent(text) == Some("list")
            <==> && !ContainsAny(t, CountKeywords)
                 && (ContainsAny(t, ListKeywords) || (Contains(t, "tablas") && !Contains(t, "columnas")))
  {
  }

  /** The text fires neither the count rule nor the list rule. */
  predicate NoTableRule(t: string) {
    && !ContainsAny(t, CountKeywords)
    && !ContainsAny(t, ListKeywords)
    && !(Contains(t, "tablas") && !Contains(t, "columnas"))
  }

  /** The row-count rule decides exactly the texts with a row-count keyword
      that fire no earlier rule. */
  lemma RowCountRuleFires(text: string)
    ensures var t := Lower(text);
            DetectIntent(text) == Some("rowcount")
            <==> NoTableRule(t) && !ContainsAny(t, ColumnKeywords) && ContainsAny(t, RowCountKeywords)
  {
  }

  /** The sample rule decides exactly the texts with a sample keyword that
      fire no earlier rule. */
  lemma SampleRuleFires(text: string)
    ensures var t := Lower(text);
            DetectIntent(text) == Some("sample")
            <==> && NoTableRule(t) && !ContainsAny(t, ColumnKeywords) && !ContainsAny(t, RowCountKeywords)
                 && ContainsAny(t, SampleKeywords)
  {
  }

  /** The overview rule decides exactly the texts with an overview keyword
      that fire no earlier rule. */
  lemma OverviewRuleFires(text: string)
    ensures var t := Lower(text);
            DetectIntent(text) == Some("overview")
            <==> && NoTableRule(t) && !ContainsAny(t, ColumnKeywords) && !ContainsAny(t, RowCountKeywords)
                 && !ContainsAny(t, SampleKeywords) && ContainsAny(t, OverviewKeywords)
  {
  }

  /** Every count and list phrase, and "tablas" itself, holds a 'b': a text
      without one fires neither rule. */
  lemma NoTableWordsWithoutB(t: string)
    requires 'b' !in t
    ensures !ContainsAny(t, CountKeywords) && !ContainsAny(t, ListKeywords) && !Contains(t, "tablas")
  {
    NotContainsAnyByChar(t, CountKeywords, 'b');
    NotContainsAnyByChar(t, ListKeywords, 'b');
    NotContainsByChar(t, "tablas", 'b');
  }

  /** The example requests are written in lower case and hold no 'b'. */
  lemma LowerCaseText(t: string)
    requires t == "¿cuántas tablas hay?" || t == "muéstrame las columnas" || t == "estructura completa"
    ensures Lower(t) == t
    ensures t != "¿cuántas tablas hay?" ==> 'b' !in t
  {
    if t == "¿cuántas tablas hay?" {
      LowerOfLower("¿cuántas tablas hay?");
    } else if t == "muéstrame las columnas" {
      LowerOfLower("muéstrame las columnas");
      assert 'b' !in "muéstrame las columnas";
    } else {
      LowerOfLower("estructura completa");
      assert 'b' !in "estructura completa";
    }
  }

  /** "¿cuántas tablas hay?" asks for the table count. */
  lemma CountQuestionExample()
    ensures DetectIntent("¿cuántas tablas hay?") == Some("count")
  {
    var t := "¿cuántas tablas hay?";
    LowerCaseText(t);
    assert OccursAt(t, CountKeywords[1], 1);
    CountPhraseWins(t, CountKeywords[1]);
  }

  /** "muéstrame las columnas" names no table, so without a mention the
      fallback asks which table and plans no step. */
  lemma ColumnsWithoutTableExample(extract: string -> Option<string>)
    requires extract("muéstrame las columnas") == None
    ensures FallbackPlan("muéstrame las columnas", extract) == Plan("columns", [], [TableQuestion])
  {
    ColumnsRequestExample();
  }

  /** "muéstrame las columnas" asks for columns. */
  lemma ColumnsRequestExample()
    ensures DetectIntent("muéstrame las columnas") == Some("columns")
  {
    var t := "muéstrame las columnas";
    LowerCaseText(t);
    NoTableWordsWithoutB(t);
    assert Contains(t, ColumnKeywords[0]) by {
      assert OccursAt(t, "columnas", 14);
    }
    ColumnsRuleFires(t);
  }

  /** The overview phrase "estructura completa" never produces an overview:
      it contains the columns keyword "estructura", and the columns rule
      fires first. */
  lemma OverviewPhraseShadowed()
    ensures DetectIntent("estructura completa") == Some("columns")
  {
    var t := "estructura completa";
    LowerCaseText(t);
    NoTableWordsWithoutB(t);
    assert Contains(t, ColumnKeywords[2]) by {
      assert OccursAt(t, ColumnKeywords[2], 0);
    }
    ColumnsRuleFires(t);
  }

  /** A granted request whose model answer does not parse, with a
      table-scoped intent and no table mention, is routed to clarification,
      and the question put to the user is which table. */
  lemma ClarifyAsksForTable(s: State, planner: (Option<string>, string) -> Option<Plan>,
                            extract: string -> Option<string>)
    requires s.accessGranted == Some(true)
    requires planner(s.userRole, LastUserMessage(s.messages)).None?
    requires var intent := DetectIntent(LastUserMessage(s.messages));
             intent.Some? && IsTableScoped(intent.value)
    requires extract(LastUserMessage(s.messages)).GetOr("") == ""
    ensures var s1 := PlanNode(s, planner, extract);
            && ShouldClarify(s1) == Clarify
            && AskForClarification(s1).messages == [Ai(TableQuestion)]
  {
    var s1 := PlanNode(s, planner, extract);
    assert s1.plan.value.clarifications == [TableQuestion];
  }
}

=== FILE: state.dfy ===
/** The conversation state threaded through the assistant's graph, and the
    vocabulary shared by its nodes: roles, plan actions and result records. */
module AgentState {
  import opened Wrappers
  import opened Catalog

  /** One entry of the prompt history. */
  datatype Message = System(content: string) | Human(content: string) | Ai(content: string)

  /** One planned step. `kind` is whatever type string the planner emitted;
      only the six kinds of the vocabulary are ever executed. */
  datatype Action = Action(kind: string, table: Option<string>, limit: Option<int>)

  datatype Plan = Plan(intent: string, actions: seq<Action>, clarifications: seq<string>)

  /** `state.get("plan") or {}`: a missing plan reads as one with no steps. */
  const NoPlan := Plan("", [], [])

  /** The payload of a successful step; its variant fixes the step's kind. */
  datatype Payload =
    | OverviewText(text: string)
    | TableCount(count: int)
    | TableNames(names: seq<string>)
    | Columns(columns: seq<ColumnInfo>)
    | RowCount(count: int)
    | Records(records: seq<map<Cell, Cell>>)

  /** One entry of `db_results`: a step's result (with the qualified table it
      read, for table-scoped steps) or the error that stopped that step. */
  datatype DbResult =
    | Done(table: Option<string>, result: Payload)
    | Error(kind: string, error: string)
  {
    /** The entry's `action` field. */
    function Action(): string {
      match this
      case Error(kind, _) => kind
      case Done(_, OverviewText(_)) => "overview"
      case Done(_, TableCount(_)) => "count_tables"
      case Done(_, TableNames(_)) => "list_tables"
      case Done(_, Columns(_)) => "columns"
      case Done(_, RowCount(_)) => "rowcount"
      case Done(_, Records(_)) => "sample"
    }
  }

  datatype State = State(
    messages: seq<Message>,
    userRole: Option<string>,
    userId: Option<int>,
    accessGranted: Option<bool>,
    plan: Option<Plan>,
    dbResults: Option<seq<DbResult>>,
    reasonedAnswer: Option<string>)

  /** The nodes of the graph; `End` is the terminal. */
  datatype Node = CheckAccess | PlanStep | Clarify | Execute | Reason | Finalize | End

  /** A request as the HTTP layer builds it: history, role and id only. */
  predicate Fresh(s: State) {
    s.accessGranted.None? && s.plan.None? && s.dbResults.None? && s.reasonedAnswer.None?
  }

  /** Roles with access to the whole database. */
  predicate IsPrivileged(role: Option<string>) {
    role == Some("empleado") || role == Some("administrador")
  }

  /** Steps that read global metadata rather than one table. */
  predicate IsGlobal(kind: string) {
    kind == "overview" || kind == "count_tables" || kind == "list_tables"
  }

  /** Steps that need a table argument. */
  predicate IsTableScoped(kind: string) {
    kind == "columns" || kind == "rowcount" || kind == "sample"
  }

  /** The fixed vocabulary of executable steps. */
  predicate IsKnownKind(kind: string) {
    IsGlobal(kind) || IsTableScoped(kind)
  }

  /** The text of the most recent human message, or "" when there is none. */
  function LastUserMessage(messages: seq<Message>): (text: string)
    ensures (forall i :: 0 <= i < |messages| ==> !messages[i].Human?) ==> text == ""
    ensures (exists i :: 0 <= i < |messages| && messages[i].Human?) ==>
              exists i :: 0 <= i < |messages| && messages[i] == Human(text)
                          && forall j :: i < j < |messages| ==> !messages[j].Human?
  {
    if |messages| == 0 then ""
    else
      var last := messages[|messages| - 1];
      if last.Human? then last.content
      else
        var init := messages[..|messages| - 1];
        var text := LastUserMessage(init);
        assert forall i :: 0 <= i < |init| ==> init[i] == messages[i];
        if exists i :: 0 <= i < |init| && init[i].Human? then
          var i :| 0 <= i < |init| && init[i] == Human(text) && forall j :: i < j < |init| ==> !init[j].Human?;
          assert messages[i] == Human(text);
          text
        else text
  }
}

=== FILE: strings.dfy ===
/** The handful of Python `str` operations the assistant's control logic
    relies on: `lower`, `strip`, substring test (`k in t`), `split` on one
    separator character and `join`. */
module Strings {

  /** Python's `str.isspace` for one character (the characters with the
      Unicode whitespace property that Python recognises). */
  predicate IsSpace(c: char) {
    || c == ' '
    || ('\t' <= c <= '\r')
    || ('\U{1C}' <= c <= '\U{1F}')
    || c == '\U{85}' || c == '\U{A0}' || c == '\U{1680}'
    || ('\U{2000}' <= c <= '\U{200A}')
    || c == '\U{2028}' || c == '\U{2029}' || c == '\U{202F}' || c == '\U{205F}'
    || c == '\U{3000}'
  }

  /** Upper-case letters of ASCII and Latin-1 (the multiplication sign U+00D7
      sits inside that block but is not a letter). */
  predicate IsUpper(c: char) {
    ('A' <= c <= 'Z') || ('\U{C0}' <= c <= '\U{DE}' && c != '\U{D7}')
  }

  /** Python's `str.lower` on ASCII and Latin-1, where every upper-case letter
      maps to the code point 32 places higher. */
  function LowerChar(c: char): (r: char)
    ensures !IsUpper(r)
    ensures !IsUpper(c) ==> r == c
    ensures IsUpper(c) ==> r as int == c as int + 32
  {
    if IsUpper(c) then (c as int + 32) as char else c
  }

  function Lower(s: string): (r: string)
    ensures |r| == |s|
    ensures forall i :: 0 <= i < |s| ==> r[i] == LowerChar(s[i])
  {
    seq(|s|, i requires 0 <= i < |s| => LowerChar(s[i]))
  }

  /** Lower-casing twice is lower-casing once. */
  lemma LowerIdempotent(s: string)
    ensures Lower(Lower(s)) == Lower(s)
  {
  }

  /** A text with no upper-case letter is its own lower-case form. */
  lemma LowerOfLower(s: string)
    requires forall i :: 0 <= i < |s| ==> !IsUpper(s[i])
    ensures Lower(s) == s
  {
  }

  /** Drops leading whitespace: the result is a suffix of `s`, everything
      dropped is whitespace, and the result does not start with whitespace. */
  function TrimLeft(s: string): (r: string)
    ensures |r| <= |s| && r == s[|s| - |r|..]
    ensures forall k :: 0 <= k < |s| - |r| ==> IsSpace(s[k])
    ensures |r| > 0 ==> !IsSpace(r[0])
  {
    if |s| > 0 && IsSpace(s[0]) then TrimLeft(s[1..]) else s
  }

  /** Drops trailing whitespace: the result is a prefix of `s`, everything
      dropped is whitespace, and the result does not end with whitespace. */
  function TrimRight(s: string): (r: string)
    ensures |r| <= |s| && r == s[..|r|]
    ensures forall k :: |r| <= k < |s| ==> IsSpace(s[k])
    ensures |r| > 0 ==> !IsSpace(r[|r| - 1])
  {
    if |s| > 0 && IsSpace(s[|s| - 1]) then TrimRight(s[..|s| - 1]) else s
  }

  /** Python's `str.strip()`: a contiguous piece of `s` with whitespace on
      neither border, surrounded in `s` by whitespace only. */
  function Strip(s: string): (r: string)
    ensures |r| > 0 ==> !IsSpace(r[0]) && !IsSpace(r[|r| - 1])
    ensures exists i :: 0 <= i <= |s| - |r| && Borders(s, r, i)
  {
    var l := TrimLeft(s);
    var r := TrimRight(l);
    assert Borders(s, r, |s| - |l|);
    r
  }

  /** `r` sits in `s` at offset `i` with only whitespace around it. */
  ghost predicate Borders(s: string, r: string, i: int)
    requires 0 <= i <= |s| - |r|
  {
    && s[i..i + |r|] == r
    && (forall k :: 0 <= k < i ==> IsSpace(s[k]))
    && (forall k :: i + |r| <= k < |s| ==> IsSpace(s[k]))
  }

  /** A text with no whitespace on its borders is left as it is by `Strip`. */
  lemma StripUnbordered(s: string)
    requires |s| > 0 ==> !IsSpace(s[0]) && !IsSpace(s[|s| - 1])
    ensures Strip(s) == s
  {
  }

  predicate OccursAt(t: string, k: string, i: int) {
    0 <= i && i + |k| <= |t| && t[i..i + |k|] == k
  }

  /** Python's `k in t` for strings. */
  predicate Contains(t: string, k: string) {
    exists i | 0 <= i <= |t| - |k| :: OccursAt(t, k, i)
  }

  /** Python's `any(k in t for k in keys)`. */
  predicate ContainsAny(t: string, keys: seq<string>) {
    exists j | 0 <= j < |keys| :: Contains(t, keys[j])
  }

  /** A keyword holding a character the text lacks does not occur in it. */
  lemma NotContainsByChar(t: string, k: string, c: char)
    requires c in k && c !in t
    ensures !Contains(t, k)
  {
  }

  /** Every keyword of `keys` holds `c` and the text lacks it. */
  lemma NotContainsAnyByChar(t: string, keys: seq<string>, c: char)
    requires c !in t
    requires forall j :: 0 <= j < |keys| ==> c in keys[j]
    ensures !ContainsAny(t, keys)
  {
    forall j | 0 <= j < |keys|
      ensures !Contains(t, keys[j])
    {
      NotContainsByChar(t, keys[j], c);
    }
  }

  /** The position of the first `c` in `s`. */
  function IndexOf(s: string, c: char): (i: nat)
    requires c in s
    ensures i < |s| && s[i] == c && c !in s[..i]
  {
    if s[0] == c then 0
    else
      var i := IndexOf(s[1..], c);
      assert s[..i + 1] == [s[0]] + s[1..][..i];
      i + 1
  }

  /** A `c` at `n` with none before it is the first one. */
  lemma {:induction false} IndexOfAfter(s: string, c: char, n: nat)
    requires n < |s| && s[n] == c && c !in s[..n]
    ensures c in s && IndexOf(s, c) == n
  {
    if n > 0 {
      assert s[0] == s[..n][0];
      assert s[1..][..n - 1] == s[1..n];
      assert forall k :: 0 <= k < n - 1 ==> s[1..n][k] == s[..n][k + 1];
      IndexOfAfter(s[1..], c, n - 1);
    }
  }

  /** Python's `s.split(sep)` for a one-character separator: the pieces
      between consecutive separators, never an empty list. */
  function Split(s: string, sep: char): (parts: seq<string>)
    ensures |parts| > 0
    ensures forall k :: 0 <= k < |parts| ==> sep !in parts[k]
    decreases |s|
  {
    if sep !in s then [s]
    else
      var i := IndexOf(s, sep);
      [s[..i]] + Split(s[i + 1..], sep)
  }

  /** Python's `sep.join(parts)`. */
  function Join(parts: seq<string>, sep: string): string {
    if |parts| == 0 then ""
    else if |parts| == 1 then parts[0]
    else parts[0] + sep + Join(parts[1..], sep)
  }

  /** Joining the pieces of a split with the separator rebuilds the text. */
  lemma {:induction false} JoinSplit(s: string, sep: char)
    ensures Join(Split(s, sep), [sep]) == s
    decreases |s|
  {
    if sep in s {
      var i := IndexOf(s, sep);
      JoinSplit(s[i + 1..], sep);
      assert s == s[..i] + [sep] + s[i + 1..];
    }
  }

  /** Splitting a join of separator-free pieces gives the pieces back. */
  lemma {:induction false} SplitJoin(parts: seq<string>, sep: char)
    requires |parts| > 0
    requires forall k :: 0 <= k < |parts| ==> sep !in parts[k]
    ensures Split(Join(parts, [sep]), sep) == parts
  {
    if |parts| > 1 {
      var s := Join(parts, [sep]);
      var rest := Join(parts[1..], [sep]);
      assert s == parts[0] + [sep] + rest;
      assert s[|parts[0]|] == sep;
      var i := IndexOf(s, sep);
      assert i == |parts[0]|;
      assert s[..i] == parts[0];
      assert s[i + 1..] == rest;
      SplitJoin(parts[1..], sep);
    }
  }

  /** A join starts with the first piece and ends with the last one. */
  lemma {:induction false} JoinEnds(parts: seq<string>, sep: string)
    requires |parts| > 0 && parts[|parts| - 1] != ""
    ensures var s := Join(parts, sep);
            && |s| > 0 && s[|s| - 1] == parts[|parts| - 1][|parts[|parts| - 1]| - 1]
            && (parts[0] != "" ==> s[0] == parts[0][0])
  {
    if |parts| > 1 {
      JoinEnds(parts[1..], sep);
    }
  }
}

=== FILE: wrappers.dfy ===
/** Failure-carrying datatypes used throughout the model: an optional value
    (Python's `None`) and a result that is either a value or the text of an
    exception that escaped the call. */
module Wrappers {

  datatype Option<+T> = None | Some(value: T) {

    /** The value, or `default` when absent (Python's `x or default` for
        values that are never falsy). */
    function GetOr(default: T): T {
      match this
      case Some(v) => v
      case None => default
    }
  }

  datatype Result<+R> = Success(value: R) | Failure(error: string)
}
